=== FILE: README.md ===
# ALIC-Calendar decision logic in Dafny

ALIC-Calendar is a church calendar and budget application: a React front end
backed by Supabase, with three Deno edge functions for user administration and
auth e-mail. This project models the pure decision and validation logic that
is embedded in its budget components, its router, its dashboard layout and
its edge functions, and proves what that logic promises:

- **AllocationForm** (`allocation_form.dfy`) — the allocation-request form:
  - the zod schema for the form and for each breakdown item;
  - the ordered guards of the save handler;
  - annual requests saved without a period number;
  - drafts on create, and submit-after-success;
  - the period-number reset;
  - the breakdown total and its mismatch note.
- **BudgetMetrics** (`metrics.dfy`) — the metrics grid:
  - the disjoint expense-status buckets;
  - utilisation, completion and approval rates, each guarded against zero;
  - the average expense and the budget-health thresholds;
  - the "Over budget" subtitle.
- **BudgetOverview** (`overview.dfy`) — the overview panel:
  - the expense and allocation totals;
  - the default tab;
  - which cards, tabs and empty state are shown.
- **Routes** (`routes.dfy`) — `ProtectedRoute`'s ordered decision and the route table with its admin-only flags.
- **Navigation** (`navigation.dfy`) — the sidebar items, avatar initials, page title and active item.
- **CreateUser** (`create_user.dfy`) — the `create-user` function's authentication, validation and permission cascade, and the existing-profile branch.
- **ImportUsers** (`import_users.dfy`) — the `import-users` function's email filter and its success/failed/errors tallies.
- **AuthEmail** (`auth_email.dfy`) — the `send-auth-email` function:
  - the confirmation link;
  - the subject and template chosen by action type;
  - the response to the mail service's answer.
- **Wrappers**, **Strings** and **Http** are shared support:
  - `Option`/`Result`;
  - the JavaScript string operations the code relies on (`includes`, `replace`, `split`, `toUpperCase`, `slice`);
  - the CORS/JSON response shapes.

Every database, auth and mail call is replaced by the answer it would give. These answers are oracle parameters or outcome values: `Backend`, `Attempt`, `Oracle`, `send`. The writes a handler performs are returned as a trace. Money is an exact `real`. Environment variables are parameters: `SUPABASE_URL` becomes `supabaseUrl`.

The allocation form's rules, as its code states them:

- the schema requires a justification of at least 10 characters;
- the schema requires every breakdown item's amount to be strictly positive;
- the save handler checks a quarterly or monthly period number for presence only; its range is not checked.

## Model

| member | source | states |
|---|---|---|
| AllocationForm.ParsePeriodType | src/modules/budget/components/AllocationRequestForm.tsx:76 | exactly "annual", "quarterly" and "monthly" are accepted period types, and the parsed type names the input |
| AllocationForm.PeriodTypeRoundTrip | src/modules/budget/components/AllocationRequestForm.tsx:76 | parsing a period type's name gives the type back |
| AllocationForm.ItemErrors | src/modules/budget/components/AllocationRequestForm.tsx:69-73 | a breakdown item gets the category, description or amount error exactly when that field is empty or not positive, and no error iff it is valid |
| AllocationForm.BreakdownErrors | src/modules/budget/components/AllocationRequestForm.tsx:80 | the breakdown has no error iff every item is valid; every error names an item inside the list |
| AllocationForm.SchemaErrors | src/modules/budget/components/AllocationRequestForm.tsx:75-81 | the form's error list is empty iff the period type is one of the three, the amount is positive, the justification has at least 10 characters and every item is valid; each field error appears iff its rule fails |
| AllocationForm.Validate | src/modules/budget/components/AllocationRequestForm.tsx:75-81 | the schema accepts exactly the forms meeting all rules, passes every accepted value through unchanged, and on rejection reports each failed field rule |
| AllocationForm.ChangePeriodType | src/modules/budget/components/AllocationRequestForm.tsx:351-355 | choosing a period type sets it and clears the period number, leaving the other fields alone |
| AllocationForm.FailureToast | src/modules/budget/components/AllocationRequestForm.tsx:272-278 | the catch block's toast is a destructive "Error" toast carrying the thrown `Error`'s message, or "Failed to save allocation request" when there is none; HandleSave shows it exactly for the mutation that failed |
| AllocationForm.ActorName | src/modules/budget/components/AllocationRequestForm.tsx:242 | the recorded name is the profile's name when non-empty, otherwise the non-empty "Unknown" |
| AllocationForm.Finish | src/modules/budget/components/AllocationRequestForm.tsx:254-267 | the submit call is issued iff submit was asked for; the dialog closes iff no submit was asked for or it succeeded |
| AllocationForm.HandleSave | src/modules/budget/components/AllocationRequestForm.tsx:167-282 | missing organisation/user/fiscal year, missing ministry, and quarterly or monthly without a period number each abort with their toast and no mutation; mutations happen iff every guard passes; the first is an update of the edited request or a create with status "draft"; submit is second, only when asked for and only after the first succeeded; the dialog closes iff every issued mutation succeeded; a failed update, create or submit shows the error toast with that call's message, and success shows "Request submitted", "Request updated" or "Request created" as the branch and the submit flag decide, never a destructive toast when the dialog closes |
| AllocationForm.OnSave | src/modules/budget/components/AllocationRequestForm.tsx:571-583 | the buttons run the schema first and call the save handler only on values it accepted |
| AllocationForm.SaveWritesFormValues | src/modules/budget/components/AllocationRequestForm.tsx:209-249 | every create or update carries the form's amount and breakdown unchanged, and a null period number for annual requests, the input's otherwise |
| AllocationForm.ChangeToPeriodicBlocksSave | src/modules/budget/components/AllocationRequestForm.tsx:351-355 | after switching to quarterly or monthly, saving issues no mutation until a period number is picked |
| AllocationForm.BreakdownTotal | src/modules/budget/components/AllocationRequestForm.tsx:162-165 | the total of non-negative watched amounts is non-negative, and missing or zero amounts give a zero total |
| AllocationForm.BreakdownTotalConcat | src/modules/budget/components/AllocationRequestForm.tsx:162-165 | the running total is additive over concatenation, so it is the sum of the item amounts |
| AllocationForm.ValidBreakdownTotalPositive | src/modules/budget/components/AllocationRequestForm.tsx:162-165 | a non-empty breakdown the schema accepts has a strictly positive total |
| AllocationForm.MismatchNote | src/modules/budget/components/AllocationRequestForm.tsx:444-448 | the note shows only for a positive total and then iff the total differs from the requested amount; it is a flag and changes no value |
| AllocationForm.MismatchNoteAsWritten | src/modules/budget/components/AllocationRequestForm.tsx:444 | the note as written compares the total with the raw input value by strict inequality |
| AllocationForm.MismatchAsWrittenOnNumbers | src/modules/budget/components/AllocationRequestForm.tsx:444 | while the input holds a number, the note as written equals the intended numeric comparison |
| AllocationForm.MismatchAsWrittenOnTypedText | src/modules/budget/components/AllocationRequestForm.tsx:434-444 | once "500" is typed, a breakdown totalling 500 is flagged by the note as written though the intended note stays hidden |
| BudgetMetrics.Filter | src/modules/budget/components/BudgetMetricsGrid.tsx:117-122 | filtering by a status set keeps only statuses of that set and never lengthens the list |
| BudgetMetrics.FilterMultiplicity | src/modules/budget/components/BudgetMetricsGrid.tsx:117-122 | the filter keeps each status of the set exactly as often as it occurs and drops all others |
| BudgetMetrics.CountDisjointUnion | src/modules/budget/components/BudgetMetricsGrid.tsx:124-140 | the counts of two disjoint status sets add up to the count of their union |
| BudgetMetrics.BucketsDisjoint | src/modules/budget/components/BudgetMetricsGrid.tsx:117-140 | the pending, completed and denied status sets are pairwise disjoint |
| BudgetMetrics.BucketsBounded | src/modules/budget/components/BudgetMetricsGrid.tsx:117-140 | pending + completed + denied never exceeds the number of expenses |
| BudgetMetrics.Utilization | src/modules/budget/components/BudgetMetricsGrid.tsx:114-115 | utilisation is 0 when nothing is allocated, otherwise the spent share of the allocation in percent, within 0..100 when spending is within the allocation |
| BudgetMetrics.CompletionRate | src/modules/budget/components/BudgetMetricsGrid.tsx:130-133 | the completion rate is 0 with no expenses, otherwise completed/total·100, and always within 0..100 |
| BudgetMetrics.ApprovalRate | src/modules/budget/components/BudgetMetricsGrid.tsx:142-149 | the approval rate is 0 when every expense is denied, otherwise (total − denied − pending)/(total − denied)·100, and always within 0..100 |
| BudgetMetrics.Classify | src/modules/budget/components/BudgetMetricsGrid.tsx:152-159 | "over" iff above 100, "warning" iff in (90, 100], "good" iff in (75, 90], "excellent" iff at most 75 |
| BudgetMetrics.ClassifyMonotone | src/modules/budget/components/BudgetMetricsGrid.tsx:152-159 | higher utilisation never gives a healthier classification |
| BudgetMetrics.BalanceSubtitle | src/modules/budget/components/BudgetMetricsGrid.tsx:191 | the subtitle is "Over budget" iff the remaining balance is negative, "Remaining funds" otherwise |
| BudgetMetrics.OverBudgetMatchesHealth | src/modules/budget/components/BudgetMetricsGrid.tsx:152-191 | for the exact utilisation ratio: when something is allocated and the remaining balance is allocation minus spending, "Over budget" shows exactly when the health is "over" |
| BudgetMetrics.AverageExpenseAsWritten | src/modules/budget/components/BudgetMetricsGrid.tsx:135-136 | the average as written: rounded spent over completed count, `|| 0` applied, 0 without expenses |
| BudgetMetrics.AverageExpenseUnguarded | src/modules/budget/components/BudgetMetricsGrid.tsx:135-136 | one pending expense and 500 spent make the average as written infinite |
| BudgetMetrics.AverageExpense | src/modules/budget/components/BudgetMetricsGrid.tsx:135-136 | the guarded average is 0 with no completed expense, otherwise the spent mean rounded to the nearest integer |
| BudgetMetrics.AverageExpenseAgrees | src/modules/budget/components/BudgetMetricsGrid.tsx:135-136 | wherever the grid's guard suffices (some completed expense, or nothing spent), the two averages agree |
| BudgetMetrics.Compute | src/modules/budget/components/BudgetMetricsGrid.tsx:109-159 | the grid's figures: the utilisation, completion rate and approval rate are those of their defining members and lie within 0..100; each bucket is the count of its statuses and together they stay within the total; the guarded average; the health is the classification of the utilisation, "over" iff it exceeds 100 and "excellent" with nothing allocated; the subtitle follows the remaining balance |
| BudgetOverview.ExpenseTotal | src/modules/budget/components/BudgetOverview.tsx:42 | the expense total of non-negative amounts is non-negative |
| BudgetOverview.ExpenseTotalConcat | src/modules/budget/components/BudgetOverview.tsx:42 | the expense total is additive over concatenation, so it is the sum of the amounts |
| BudgetOverview.AllocationTotal | src/modules/budget/components/BudgetOverview.tsx:43-46 | the allocation total of non-negative requested amounts is non-negative |
| BudgetOverview.AllocationTotalIgnoresApproved | src/modules/budget/components/BudgetOverview.tsx:43-46 | the allocation total depends on requested amounts only, never on approved ones |
| BudgetOverview.DefaultTab | src/modules/budget/components/BudgetOverview.tsx:50-59 | a specific view is kept; "combined" picks allocations iff there are no expenses but some allocations |
| BudgetOverview.ShowOverview | src/modules/budget/components/BudgetOverview.tsx:78-206 | each card shows iff its list is non-empty, Total Activity iff both are; the empty state iff both are empty; each tab is rendered iff its list is non-empty, and the tab column count is the number of non-empty lists, which is the number of rendered tabs; total activity is the sum of the two totals |
| BudgetOverview.CombinedDefaultTabIsShown | src/modules/budget/components/BudgetOverview.tsx:136-201 | with the "combined" view and some data, the default tab is one the panel renders |
| Routes.Guard | src/App.tsx:21-48 | loading gives "Authenticating..." before anything else; no user redirects to /auth; no organisation gives "Loading organization..."; a non-admin on an admin-only route goes to /dashboard; children render only for a signed-in member with an organisation who is admin when the route requires it |
| Routes.GuardIgnoresRoleUnlessAdminOnly | src/App.tsx:23-47 | on a route that is not admin-only the decision ignores the role and never redirects to /dashboard |
| Routes.AdminOnlyOnlyAddsRedirect | src/App.tsx:43-47 | making a route admin-only only turns "render" into the /dashboard redirect, and changes nothing else |
| Routes.FirstMatch | src/App.tsx:58-97 | the chosen route matches the path and no earlier route does |
| Routes.Resolve | src/App.tsx:58-97 | the element rendered belongs to a route matching the path |
| Routes.RoutesUnambiguous | src/App.tsx:59-96 | no two routes other than the catch-all match the same path |
| Routes.ResolveStatic | src/App.tsx:59-96 | a path matched by any route other than the catch-all renders that route's element |
| Routes.StaticPatternsAreNotSlugs | src/App.tsx:59-96 | no static pattern of the table starts with "/public/" |
| Routes.Visit | src/App.tsx:58-97 | redirects follow their target, public pages render, and protected pages go through the guard with their admin-only flag |
| Routes.AdminPagesAreAdminOnly | src/App.tsx:73-96 | /admin, /users and /rooms are protected and admin-only |
| Routes.DashboardAndRoot | src/App.tsx:59-72 | /dashboard is protected but not admin-only, and "/" redirects to /public |
| Routes.PublicSlugOpensCalendar | src/App.tsx:64 | "/public/" followed by one non-empty segment opens the public calendar |
| Routes.UnknownPathIsNotFound | src/App.tsx:97 | a path that is no pattern of the table and does not start with "/public/" opens the not-found page |
| Routes.NonAdminSentToDashboard | src/App.tsx:43-44 | a signed-in non-admin member opening an admin page is redirected to /dashboard |
| Navigation.Items | src/components/layout/DashboardLayout.tsx:41-76 | the list starts with Dashboard "/"; Admin Panel, Users, Rooms and Analytics follow, in that order, iff the user is an admin; all hrefs are distinct |
| Navigation.AtMostOneActive | src/components/layout/DashboardLayout.tsx:137 | no two sidebar items are active for the same path |
| Navigation.FindByHref | src/components/layout/DashboardLayout.tsx:91 | the found item is the first whose href is the path; none is found iff no href matches |
| Navigation.PageTitle | src/components/layout/DashboardLayout.tsx:90-93 | the title is the name of the first item whose href is the path when that name is non-empty, otherwise "Calendar Management"; it is never empty |
| Navigation.DashboardRouteHasDefaultTitle | src/components/layout/DashboardLayout.tsx:90-93 | the protected /dashboard page, which no item links to, gets the default title |
| Navigation.DashboardItemRedirectsToPublic | src/components/layout/DashboardLayout.tsx:43-46 | the "Dashboard" item's link "/" is redirected by the router to the public calendar |
| Navigation.AdminItemsAreAdminOnly | src/components/layout/DashboardLayout.tsx:50-67 | the Admin Panel, Users and Rooms items open admin-only pages |
| Navigation.AnalyticsItemIsNotRouted | src/components/layout/DashboardLayout.tsx:68-73 | the "Analytics" item's link has no route and opens the not-found page |
| Strings.JoinSplit | src/components/layout/DashboardLayout.tsx:81-84 | joining the parts of `split(c)` with `c` gives the text back, so the split the initials are taken from loses and reorders nothing |
| Navigation.FirstsOfSplit | src/components/layout/DashboardLayout.tsx:81-84 | taking the first character of every part of `split(" ")` gives exactly the characters that start a word; empty parts contribute nothing |
| Navigation.UserInitials | src/components/layout/DashboardLayout.tsx:79-87 | "U" for an absent or empty name; otherwise the upper-cased word starts, cut to at most two characters |
| Navigation.TwoWordInitials | src/components/layout/DashboardLayout.tsx:81-86 | "ab cd" gives "AC" |
| Navigation.BlankNameInitials | src/components/layout/DashboardLayout.tsx:80-86 | a name of spaces only is truthy and gives the empty string, not "U" |
| Http.JsonError | supabase/functions/create-user/index.ts:39-45 | an error response carries the given status and message, a JSON content type and the CORS headers with their values |
| CreateUser.OrNull | supabase/functions/create-user/index.ts:184 | `ministry_name \|\| null` keeps the name iff it is non-empty |
| CreateUser.TokenOfBearerHeader | supabase/functions/create-user/index.ts:48 | the token of a "Bearer " header is the rest of the header |
| CreateUser.Enrol | supabase/functions/create-user/index.ts:200-233 | the membership is inserted with the requested role and as primary; the answer is 200 with the id and email iff the insert succeeds, 500 otherwise |
| CreateUser.Provision | supabase/functions/create-user/index.ts:114-233 | an existing member gets 400 and no write; an existing non-member gets only the membership; a new email first creates the auth user, email confirmed; an auth error then answers 400 with its message, no user 500 "Failed to create user", and a failed profile upsert 500 "User created but profile update failed", each with no further write; otherwise the profile is upserted with the new id, `ministry_name \|\| null` and the organisation, and the new id is enrolled; any 200 ends with a primary membership insert |
| CreateUser.Handle | supabase/functions/create-user/index.ts:18-233 | OPTIONS gives "ok"; then, in order: 401 without a header or with an empty one, 401 for an unknown token, 500 for an unreadable body, 400 for a missing field, 403 for a non-admin of the organisation, 400 for an email without "@", 400 for a password under 6 characters; no write happens unless every check passed |
| CreateUser.SuccessMeansAuthorized | supabase/functions/create-user/index.ts:221-233 | a 200 answer implies every check passed, a non-empty Authorization header included, and its last write is the membership of the returned user in the requested organisation with the requested role |
| CreateUser.EmptyHeaderIsMissing | supabase/functions/create-user/index.ts:36-46 | an empty Authorization header gives 401 "Missing authorization header" and no write, whatever the backend would answer |
| CreateUser.ExistingProfileGetsMembershipOnly | supabase/functions/create-user/index.ts:123-143 | for an existing profile no auth user or profile is written, only a membership |
| CreateUser.NewUserSucceeds | supabase/functions/create-user/index.ts:145-233 | with every call succeeding, a new email gets three writes and 200 with the new id and email |
| ImportUsers.AttemptError | supabase/functions/import-users/index.ts:70-102 | an auth error mentioning "already registered" or "duplicate" gives "<email> already exists", any other "<email>: <message>" |
| ImportUsers.Step | supabase/functions/import-users/index.ts:47-104 | an invalid email counts as failed with "Invalid email for <name>" and is not attempted; a valid one is attempted and counted by the auth answer |
| ImportUsers.StepCounts | supabase/functions/import-users/index.ts:47-104 | each record raises at most one of success and failed, and adds an error exactly when it adds a failure |
| ImportUsers.Tally | supabase/functions/import-users/index.ts:39-104 | after any number of records, errors.length equals failed, success + failed is at most that number, and only valid emails were attempted |
| ImportUsers.ImportAll | supabase/functions/import-users/index.ts:47-104 | the loop computes the same tallies, with errors.length == failed and success + failed ≤ \|users\| |
| ImportUsers.InvalidNeverAttempted | supabase/functions/import-users/index.ts:48-56 | the emails sent to the auth service are exactly the valid records' emails, in record order, so their number is the number of valid records |
| ImportUsers.Handle | supabase/functions/import-users/index.ts:16-121 | OPTIONS gives "ok"; an unreadable body, missing users or a non-array give 400; otherwise 200 with the JSON headers and the tally of exactly those records, whose errors match the failures |
| ImportUsers.NullNameReported | supabase/functions/import-users/index.ts:48-55 | a record without an email and with a `null` name adds the error "Invalid email for null" |
| ImportUsers.ProfileFailureStillSucceeds | supabase/functions/import-users/index.ts:92-96 | a created user whose profile upsert fails still counts as a success |
| ImportUsers.DuplicateReported | supabase/functions/import-users/index.ts:71-78 | "User already registered" is reported as "a@b.c already exists", other messages verbatim |
| AuthEmail.ConfirmLink | supabase/functions/send-auth-email/index.ts:36-37 | the link starts with the project URL ("undefined" when unset), the verify path and the token hash, and ends with the redirect target |
| AuthEmail.QueryReadsBack | supabase/functions/send-auth-email/index.ts:37 | without '&' in the parameters, the query splits back into token, type and redirect_to, in order |
| AuthEmail.ConfirmLinkReadsBack | supabase/functions/send-auth-email/index.ts:37 | without '?' or '&' inside the pieces, the link reads back as the verify path and the three parameters |
| AuthEmail.KindOf | supabase/functions/send-auth-email/index.ts:43-242 | "recovery" and "magiclink" select the reset message, "signup" and "invite" the welcome message, any other type the verification message; the three are exhaustive and exclusive |
| AuthEmail.SubjectIdentifiesKind | supabase/functions/send-auth-email/index.ts:44-242 | the three subjects are distinct, so the subject identifies the branch taken |
| AuthEmail.TemplateLinks | supabase/functions/send-auth-email/index.ts:129-263 | the reset and welcome templates insert the link once, the verification template twice |
| AuthEmail.RenderedContainsLink | supabase/functions/send-auth-email/index.ts:129-263 | every rendered message contains the confirmation link |
| AuthEmail.VerificationCarriesLinkTwice | supabase/functions/send-auth-email/index.ts:258-263 | the verification message carries the link at two non-overlapping places |
| AuthEmail.Compose | supabase/functions/send-auth-email/index.ts:270-275 | the message goes from the church's team address to the user's email only, with the dispatched subject and a body containing the link |
| AuthEmail.Handle | supabase/functions/send-auth-email/index.ts:24-307 | OPTIONS gives 200 with the CORS headers and no body; an unreadable payload gives 500 with its message; otherwise the composed message is sent, and the answer is 200 with the service's data iff sending succeeded, else 500 with the error message |
| AuthEmail.RecoverySendsReset | supabase/functions/send-auth-email/index.ts:43-44 | a recovery or magic-link request sends the reset message to the requesting user |

## Left out

- The data hooks imported from `../hooks` by the allocation form (`useMinistries`, `useActiveFiscalYear`, `useCreateAllocationRequest`, `useUpdateAllocationRequest`, `useSubmitAllocationRequest`) are not part of this model. Their results are inputs, and the mutations they perform are returned as values.
- React rendering, hooks, toasts as UI, dialogs, card colours, trend arrows and animation timers are presentation. The toasts and dialog closing of the save handler are modelled as values.
- BudgetMetrics.Classify: classifies the exact utilisation ratio, not the value rounded by `toFixed(1)` and read back by `parseFloat`. The same holds for the rates, which are exact reals rather than one-decimal strings.
- BudgetMetrics.Compute: `toLocaleString` formatting of amounts is left out, and so is the "No completed expenses" subtitle text.
- BudgetMetrics.OverBudgetMatchesHealth: the equivalence is proved for the exact ratio only. The grid classifies the utilisation after `toFixed(1)` rounding but shows the subtitle from the unrounded balance, so at the rounding edge they disagree: 1000.4 spent of 1000 shows "Over budget" with health "warning".
- BudgetMetrics.Compute: the average expense is the corrected `AverageExpense`, so with expenses but none completed it shows 0 where the grid as written shows an infinite average (see Findings; `AverageExpenseAsWritten` models the grid's figure).
- AllocationForm.Validate: zod's `z.coerce.number()` string-to-number coercion and `NaN` inputs are not modelled. Amounts arrive as numbers.
- AllocationForm.BreakdownTotal: watched amounts are numbers or absent. `Number()` of arbitrary typed text, and hence `NaN` totals, is left out.
- AllocationForm.HandleSave: the ministry lookup by case-insensitive name is given as an optional input. A thrown value that is not an `Error` shows the default message, and that value is modelled only as an absent message.
- Navigation.UserInitials: `toUpperCase` covers ASCII letters only. `n[0]` is a whole character, not a UTF-16 code unit.
- CreateUser.Handle: the password length counts characters, not UTF-16 code units.
- AllocationForm.Validate: the justification length counts characters, not UTF-16 code units.
- CreateUser.Handle: body fields are strings or absent (a `null` field is absent, as both are falsy). A truthy non-string field is not modelled: a non-string email makes `includes` throw, which the source answers with 500, and a non-string password has no `length` and passes the length check.
- CreateUser.Handle: a thrown value that is not an `Error` ("Unknown error") is not distinguished from an unreadable body.
- Supabase and Resend calls are replaced by oracle inputs: `auth.getUser`, `auth.admin.createUser`, the `.from(...)` queries and `resend.emails.send`. Console logging is left out.
- ImportUsers.Step: an email is a string or absent (`null` is treated as absent, as both are falsy). A truthy non-string email is not modelled: `includes` would throw outside the per-record `try`.
- ImportUsers.Handle: a `null` record, or a record with a truthy non-string email, makes the loop throw outside its per-record `try`, so the source answers 400 for the whole import. The model's records are always objects with string-or-absent emails, so every record is either attempted or reported invalid.
- ImportUsers.Step: the profile upsert's fields (phone number, ministry name) and the default password are not modelled. The password is a secret, not behaviour. Only whether the upsert fails is an input, and it does not change the tallies.
- Routes.Matches: react-router's ranking, case-insensitive matching and trailing-slash handling are left out. Patterns match exactly, and ":slug" matches one non-empty segment.
- AuthEmail.Template: the HTML and CSS bodies are reduced to the markup around each link insertion. The current year in the footer comes from the clock and is left out.
- AuthEmail.Handle: a mail-service error without a message (`error.message` undefined) is not modelled.
- AuthEmail.ConfirmLink: the parameters are inserted without URL encoding, as in the source, so the read-back lemma requires parameters free of '&' and '?'.
- Period-number ranges are not checked: the save handler checks only that a period number is present, and the allowed ranges come from `QUARTERLY_PERIODS` and `MONTHLY_PERIODS`, which are not part of this model.
- EventCalendar.tsx, AllocationRequestDetailDialog.tsx, AllocationRequestStatusBadge.tsx and components/index.ts are display-only, date-library-dependent or re-exports, and are not part of this model.

## Findings

| source | as written | input that shows it | evidently intended | confidence | as-written member | corrected member |
|---|---|---|---|---|---|---|
| src/modules/budget/components/AllocationRequestForm.tsx:444 | `breakdownTotal !== field.value` compares the numeric total with the amount input's value, which becomes a string once the user types | requested amount typed as "500", breakdown total 500: the note says the totals differ | compare the total with the requested amount as numbers | medium; not executed | AllocationForm.MismatchAsWrittenOnTypedText | AllocationForm.MismatchNote |
| src/modules/budget/components/BudgetMetricsGrid.tsx:135-136 | `Math.round(totalSpent / completedExpenses) \|\| 0` only catches `NaN`; a positive spent total over zero completed expenses gives `Infinity` | one pending expense, 500 spent: the average shows as infinite | 0, matching the "No completed expenses" subtitle | high; not executed | BudgetMetrics.AverageExpenseUnguarded | BudgetMetrics.AverageExpense |

=== FILE: allocation_form.dfy ===
/**
 * The allocation-request form: schema validation of the form values, the
 * guards and period normalisation of the save handler, the breakdown total
 * and the note that flags a breakdown/requested-amount mismatch.
 *
 * Amounts are exact reals; the create, update and submit mutations are
 * replaced by their outcomes, given as inputs.
 */
module AllocationForm {
  import opened Wrappers
  import opened Strings

  datatype PeriodType = Annual | Quarterly | Monthly

  /** The wire name of a period type. */
  function PeriodTypeName(p: PeriodType): string {
    match p
    case Annual => "annual"
    case Quarterly => "quarterly"
    case Monthly => "monthly"
  }

  /** The period-type enum of the schema: exactly the three names are accepted. */
  function ParsePeriodType(s: string): (r: Option<PeriodType>)
    ensures r.Some? <==> s in {"annual", "quarterly", "monthly"}
    ensures r.Some? ==> PeriodTypeName(r.value) == s
  {
    if s == "annual" then Some(Annual)
    else if s == "quarterly" then Some(Quarterly)
    else if s == "monthly" then Some(Monthly)
    else None
  }

  lemma PeriodTypeRoundTrip(p: PeriodType)
    ensures ParsePeriodType(PeriodTypeName(p)) == Some(p)
  {
  }

  /** One line of the budget breakdown. */
  datatype BreakdownItem = BreakdownItem(category: string, description: string, amount: real)

  /** The values the form hands to the schema. */
  datatype RawForm = RawForm(
    periodType: string,
    periodNumber: Option<int>,
    requestedAmount: real,
    justification: string,
    breakdown: Option<seq<BreakdownItem>>)

  /** The values the schema accepts. */
  datatype FormValues = FormValues(
    periodType: PeriodType,
    periodNumber: Option<int>,
    requestedAmount: real,
    justification: string,
    breakdown: Option<seq<BreakdownItem>>)

  /** The schema's per-field messages; breakdown errors carry the item's index. */
  datatype FieldError =
    | CategoryRequired(index: nat)
    | DescriptionRequired(index: nat)
    | ItemAmountNotPositive(index: nat)
    | InvalidPeriodType
    | RequestedAmountNotPositive
    | JustificationTooShort

  const MinJustificationLength: nat := 10

  /** An item the breakdown schema accepts. */
  predicate ValidItem(item: BreakdownItem) {
    |item.category| >= 1 && |item.description| >= 1 && item.amount > 0.0
  }

  /** The schema's errors for one breakdown item at position `index`. */
  function ItemErrors(item: BreakdownItem, index: nat): (errs: seq<FieldError>)
    ensures CategoryRequired(index) in errs <==> item.category == ""
    ensures DescriptionRequired(index) in errs <==> item.description == ""
    ensures ItemAmountNotPositive(index) in errs <==> item.amount <= 0.0
    ensures errs == [] <==> ValidItem(item)
    ensures forall e :: e in errs ==> (e.CategoryRequired? || e.DescriptionRequired? || e.ItemAmountNotPositive?) && e.index == index
  {
    (if item.category == "" then [CategoryRequired(index)] else [])
    + (if item.description == "" then [DescriptionRequired(index)] else [])
    + (if item.amount <= 0.0 then [ItemAmountNotPositive(index)] else [])
  }

  /** The errors of every item of `items`, numbering them from `start`. */
  function BreakdownErrors(items: seq<BreakdownItem>, start: nat): (errs: seq<FieldError>)
    ensures errs == [] <==> forall k :: 0 <= k < |items| ==> ValidItem(items[k])
    ensures forall e :: e in errs ==> (e.CategoryRequired? || e.DescriptionRequired? || e.ItemAmountNotPositive?) && start <= e.index < start + |items|
    decreases |items|
  {
    if |items| == 0 then []
    else
      var rest := BreakdownErrors(items[1..], start + 1);
      assert forall k :: 1 <= k < |items| ==> items[1..][k - 1] == items[k];
      ItemErrors(items[0], start) + rest
  }

  /** The schema's errors for the whole form, in field order. */
  function SchemaErrors(raw: RawForm): (errs: seq<FieldError>)
    ensures InvalidPeriodType in errs <==> raw.periodType !in {"annual", "quarterly", "monthly"}
    ensures RequestedAmountNotPositive in errs <==> raw.requestedAmount <= 0.0
    ensures JustificationTooShort in errs <==> |raw.justification| < MinJustificationLength
    ensures errs == [] <==>
      && raw.periodType in {"annual", "quarterly", "monthly"}
      && raw.requestedAmount > 0.0
      && |raw.justification| >= MinJustificationLength
      && (raw.breakdown.Some? ==> forall k :: 0 <= k < |raw.breakdown.value| ==> ValidItem(raw.breakdown.value[k]))
  {
    var fieldErrs :=
      (if ParsePeriodType(raw.periodType).None? then [InvalidPeriodType] else [])
      + (if raw.requestedAmount <= 0.0 then [RequestedAmountNotPositive] else [])
      + (if |raw.justification| < MinJustificationLength then [JustificationTooShort] else []);
    var itemErrs := if raw.breakdown.Some? then BreakdownErrors(raw.breakdown.value, 0) else [];
    assert InvalidPeriodType !in itemErrs && RequestedAmountNotPositive !in itemErrs && JustificationTooShort !in itemErrs;
    fieldErrs + itemErrs
  }

  /** Runs the form schema; on success the values pass through unchanged. */
  function Validate(raw: RawForm): (r: Result<FormValues, seq<FieldError>>)
    ensures r.Success? <==>
      && raw.periodType in {"annual", "quarterly", "monthly"}
      && raw.requestedAmount > 0.0
      && |raw.justification| >= MinJustificationLength
      && (raw.breakdown.Some? ==> forall k :: 0 <= k < |raw.breakdown.value| ==> ValidItem(raw.breakdown.value[k]))
    ensures r.Success? ==>
      && PeriodTypeName(r.value.periodType) == raw.periodType
      && r.value.periodNumber == raw.periodNumber
      && r.value.requestedAmount == raw.requestedAmount
      && r.value.justification == raw.justification
      && r.value.breakdown == raw.breakdown
    ensures r.Failure? ==> r.error != []
    ensures r.Failure? ==>
      && (InvalidPeriodType in r.error <==> raw.periodType !in {"annual", "quarterly", "monthly"})
      && (RequestedAmountNotPositive in r.error <==> raw.requestedAmount <= 0.0)
      && (JustificationTooShort in r.error <==> |raw.justification| < MinJustificationLength)
  {
    var errs := SchemaErrors(raw);
    if errs == [] then
      Success(FormValues(ParsePeriodType(raw.periodType).value, raw.periodNumber, raw.requestedAmount, raw.justification, raw.breakdown))
    else Failure(errs)
  }

  /**
   * Choosing a different period type resets the period number. The select
   * calls this handler only when the chosen value differs from the current
   * one, so re-choosing the current type keeps the period number.
   */
  function ChangePeriodType(values: FormValues, p: PeriodType): (r: FormValues)
    ensures r.periodType == p && r.periodNumber.None?
    ensures r.requestedAmount == values.requestedAmount && r.justification == values.justification
    ensures r.breakdown == values.breakdown
  {
    values.(periodType := p, periodNumber := None)
  }

  // ---------------------------------------------------------------------
  // The save handler

  /** What the form knows about its surroundings when the user saves. */
  datatype Context = Context(
    organization: Option<string>,
    user: Option<string>,
    activeFiscalYear: Option<string>,
    userMinistry: Option<string>,
    profileName: Option<string>,
    editing: Option<string>)

  /** The fields written on both create and update. */
  datatype RequestFields = RequestFields(
    periodType: PeriodType,
    periodNumber: Option<int>,
    requestedAmount: real,
    justification: string,
    breakdown: Option<seq<BreakdownItem>>)

  const DraftStatus: string := "draft"

  /** The mutations the handler may issue, in the order it issues them. */
  datatype Mutation =
    | Create(organizationId: string, fiscalYearId: string, ministryId: string,
             requesterId: string, requesterName: string, fields: RequestFields, status: string)
    | Update(requestId: string, fields: RequestFields)
    | Submit(requestId: string, actorId: string, actorName: string)

  /** A mutation's outcome; a failure carries the thrown `Error`'s message when it is one. */
  datatype CallOutcome = Ok | Failed(message: Option<string>)

  /** The outcomes the three mutation hooks would produce; `created` carries the new id. */
  datatype Oracle = Oracle(created: Result<string, Option<string>>, updated: CallOutcome, submitted: CallOutcome)

  datatype Toast = Toast(title: string, description: string, destructive: bool)

  /** The mutations issued, the toast shown, and whether the dialog closed. */
  datatype SaveResult = SaveResult(mutations: seq<Mutation>, toast: Toast, closed: bool)

  const MissingData := Toast("Error", "Missing required data. Please try again.", true)
  const NoMinistry := Toast("Error", "You are not assigned to a ministry. Please contact an administrator.", true)
  const NoQuarter := Toast("Error", "Please select a quarter.", true)
  const NoMonth := Toast("Error", "Please select a month.", true)
  const SubmittedToast := Toast("Request submitted", "Your allocation request has been submitted for review.", false)
  const UpdatedToast := Toast("Request updated", "Your allocation request has been saved as a draft.", false)
  const CreatedToast := Toast("Request created", "Your allocation request has been saved as a draft.", false)

  /** The catch block's toast: the thrown `Error`'s message, or the default text. */
  function FailureToast(message: Option<string>): (t: Toast)
    ensures t.title == "Error" && t.destructive
    ensures t.description == message.GetOr("Failed to save allocation request")
  {
    Toast("Error", message.GetOr("Failed to save allocation request"), true)
  }

  /** The name recorded for the actor: the profile's name, or "Unknown" when empty or absent. */
  function ActorName(profileName: Option<string>): (n: string)
    ensures n != ""
    ensures profileName.Some? && profileName.value != "" ==> n == profileName.value
    ensures !(profileName.Some? && profileName.value != "") ==> n == "Unknown"
  {
    if profileName.Some? && profileName.value != "" then profileName.value else "Unknown"
  }

  /** A JavaScript-falsy period number: absent, null or zero. */
  predicate FalsyPeriodNumber(n: Option<int>) {
    n.None? || n.value == 0
  }

  /** The fields persisted for `values`: annual requests never keep a period number. */
  function Persisted(values: FormValues): (f: RequestFields)
    ensures f.periodNumber == (if values.periodType == Annual then None else values.periodNumber)
    ensures f.periodType == values.periodType && f.requestedAmount == values.requestedAmount
    ensures f.justification == values.justification && f.breakdown == values.breakdown
  {
    RequestFields(values.periodType, if values.periodType == Annual then None else values.periodNumber,
                  values.requestedAmount, values.justification, values.breakdown)
  }

  /** The guards that must pass before any mutation is issued. */
  predicate GuardsPass(ctx: Context, values: FormValues) {
    && ctx.organization.Some? && ctx.user.Some? && ctx.activeFiscalYear.Some?
    && ctx.userMinistry.Some?
    && !(values.periodType != Annual && FalsyPeriodNumber(values.periodNumber))
  }

  /** Submits `id` when asked to, after the create or update succeeded. */
  function Finish(ctx: Context, id: string, submit: bool, before: seq<Mutation>, done: Toast, oracle: Oracle): (r: SaveResult)
    requires ctx.user.Some?
    ensures submit ==> r.mutations == before + [Submit(id, ctx.user.value, ActorName(ctx.profileName))]
    ensures !submit ==> r.mutations == before && r.toast == done && r.closed
    ensures r.closed <==> !submit || oracle.submitted.Ok?
  {
    if !submit then SaveResult(before, done, true)
    else
      var muts := before + [Submit(id, ctx.user.value, ActorName(ctx.profileName))];
      match oracle.submitted
      case Ok => SaveResult(muts, SubmittedToast, true)
      case Failed(m) => SaveResult(muts, FailureToast(m), false)
  }

  /** The save handler for already validated values; `submit` distinguishes "Submit for Review" from "Save as Draft". */
  function HandleSave(ctx: Context, values: FormValues, submit: bool, oracle: Oracle): (r: SaveResult)
    // the guards, in order; each aborts before any mutation
    ensures (ctx.organization.None? || ctx.user.None? || ctx.activeFiscalYear.None?) ==>
      r == SaveResult([], MissingData, false)
    ensures ctx.organization.Some? && ctx.user.Some? && ctx.activeFiscalYear.Some? && ctx.userMinistry.None? ==>
      r == SaveResult([], NoMinistry, false)
    ensures ctx.organization.Some? && ctx.user.Some? && ctx.activeFiscalYear.Some? && ctx.userMinistry.Some? ==>
      && (values.periodType == Quarterly && FalsyPeriodNumber(values.periodNumber) ==> r == SaveResult([], NoQuarter, false))
      && (values.periodType == Monthly && FalsyPeriodNumber(values.periodNumber) ==> r == SaveResult([], NoMonth, false))
    ensures r.mutations != [] <==> GuardsPass(ctx, values)
    // the first mutation: an update of the edited request or a draft creation
    ensures r.mutations != [] && ctx.editing.Some? ==> r.mutations[0] == Update(ctx.editing.value, Persisted(values))
    ensures r.mutations != [] && ctx.editing.None? ==>
      r.mutations[0] == Create(ctx.organization.value, ctx.activeFiscalYear.value, ctx.userMinistry.value,
                               ctx.user.value, ActorName(ctx.profileName), Persisted(values), DraftStatus)
    // submit comes second, only when asked for and only after the first mutation succeeded
    ensures |r.mutations| <= 2
    ensures |r.mutations| == 2 <==>
      GuardsPass(ctx, values) && submit && (if ctx.editing.Some? then oracle.updated.Ok? else oracle.created.Success?)
    ensures |r.mutations| == 2 ==> r.mutations[1].Submit?
    ensures forall k :: 0 <= k < |r.mutations| && r.mutations[k].Submit? ==> k == 1
    // the dialog closes only when every mutation issued succeeded
    ensures r.closed <==>
      GuardsPass(ctx, values)
      && (if ctx.editing.Some? then oracle.updated.Ok? else oracle.created.Success?)
      && (submit ==> oracle.submitted.Ok?)
    // the toast: the catch's error toast for the failing mutation, else the branch's success toast
    ensures GuardsPass(ctx, values) && ctx.editing.Some? && oracle.updated.Failed? ==>
      r.toast == FailureToast(oracle.updated.message)
    ensures GuardsPass(ctx, values) && ctx.editing.None? && oracle.created.Failure? ==>
      r.toast == FailureToast(oracle.created.error)
    ensures GuardsPass(ctx, values) && (if ctx.editing.Some? then oracle.updated.Ok? else oracle.created.Success?) ==>
      && (submit && oracle.submitted.Failed? ==> r.toast == FailureToast(oracle.submitted.message))
      && (submit && oracle.submitted.Ok? ==> r.toast == SubmittedToast)
      && (!submit ==> r.toast == if ctx.editing.Some? then UpdatedToast else CreatedToast)
    ensures r.closed ==> !r.toast.destructive
  {
    if ctx.organization.None? || ctx.user.None? || ctx.activeFiscalYear.None? then SaveResult([], MissingData, false)
    else if ctx.userMinistry.None? then SaveResult([], NoMinistry, false)
    else if values.periodType == Quarterly && FalsyPeriodNumber(values.periodNumber) then SaveResult([], NoQuarter, false)
    else if values.periodType == Monthly && FalsyPeriodNumber(values.periodNumber) then SaveResult([], NoMonth, false)
    else
      var fields := Persisted(values);
      var actor := ActorName(ctx.profileName);
      if ctx.editing.Some? then
        var update := Update(ctx.editing.value, fields);
        match oracle.updated
        case Failed(m) => SaveResult([update], FailureToast(m), false)
        case Ok => Finish(ctx, ctx.editing.value, submit, [update], UpdatedToast, oracle)
      else
        var create := Create(ctx.organization.value, ctx.activeFiscalYear.value, ctx.userMinistry.value,
                             ctx.user.value, actor, fields, DraftStatus);
        match oracle.created
        case Failure(m) => SaveResult([create], FailureToast(m), false)
        case Success(id) => Finish(ctx, id, submit, [create], CreatedToast, oracle)
  }

  /** The "Save as Draft" / "Submit for Review" buttons: the schema runs first, then the handler. */
  function OnSave(ctx: Context, raw: RawForm, submit: bool, oracle: Oracle): (r: Result<SaveResult, seq<FieldError>>)
    ensures r.Failure? <==> Validate(raw).Failure?
    ensures r.Success? ==> r.value == HandleSave(ctx, Validate(raw).value, submit, oracle)
  {
    match Validate(raw)
    case Failure(errs) => Failure(errs)
    case Success(values) => Success(HandleSave(ctx, values, submit, oracle))
  }

  /** Every mutation the handler issues carries the persisted fields, never a corrected amount. */
  lemma SaveWritesFormValues(ctx: Context, values: FormValues, submit: bool, oracle: Oracle, k: nat)
    requires k < |HandleSave(ctx, values, submit, oracle).mutations|
    ensures var m := HandleSave(ctx, values, submit, oracle).mutations[k];
      !m.Submit? ==>
        && m.fields.requestedAmount == values.requestedAmount
        && m.fields.breakdown == values.breakdown
        && m.fields.periodNumber == (if values.periodType == Annual then None else values.periodNumber)
  {
  }

  /** Switching to quarterly or monthly from another type clears the period number, so saving aborts until one is picked. */
  lemma ChangeToPeriodicBlocksSave(ctx: Context, values: FormValues, p: PeriodType, submit: bool, oracle: Oracle)
    requires p != Annual
    ensures HandleSave(ctx, ChangePeriodType(values, p), submit, oracle).mutations == []
  {
  }

  // ---------------------------------------------------------------------
  // Breakdown total and mismatch note

  /** A watched item amount, `|| 0` applied: absent, empty and zero all contribute nothing. */
  function AmountOf(watched: Option<real>): real {
    watched.GetOr(0.0)
  }

  /** The running sum the form shows, folded from the left like `reduce`. */
  function BreakdownTotal(watched: seq<Option<real>>): (total: real)
    ensures (forall k :: 0 <= k < |watched| ==> AmountOf(watched[k]) >= 0.0) ==> total >= 0.0
    ensures (forall k :: 0 <= k < |watched| ==> AmountOf(watched[k]) == 0.0) ==> total == 0.0
  {
    if |watched| == 0 then 0.0
    else BreakdownTotal(watched[..|watched| - 1]) + AmountOf(watched[|watched| - 1])
  }

  /** The total of two lists of items is the sum of their totals. */
  lemma {:induction false} BreakdownTotalConcat(xs: seq<Option<real>>, ys: seq<Option<real>>)
    ensures BreakdownTotal(xs + ys) == BreakdownTotal(xs) + BreakdownTotal(ys)
    decreases |ys|
  {
    if |ys| > 0 {
      var ys' := ys[..|ys| - 1];
      assert (xs + ys)[..|xs + ys| - 1] == xs + ys';
      BreakdownTotalConcat(xs, ys');
    } else {
      assert xs + ys == xs;
    }
  }

  /** The amounts of validated items, as the form watches them. */
  function Watched(items: seq<BreakdownItem>): (w: seq<Option<real>>)
    ensures |w| == |items|
    ensures forall k :: 0 <= k < |items| ==> w[k] == Some(items[k].amount)
  {
    seq(|items|, k requires 0 <= k < |items| => Some(items[k].amount))
  }

  /** A breakdown the schema accepts has a strictly positive total, so the note can show. */
  lemma ValidBreakdownTotalPositive(items: seq<BreakdownItem>)
    requires |items| > 0
    requires forall k :: 0 <= k < |items| ==> ValidItem(items[k])
    ensures BreakdownTotal(Watched(items)) > 0.0
  {
    var w := Watched(items);
    assert w == w[..|w| - 1] + [w[|w| - 1]];
    assert BreakdownTotal(w[..|w| - 1]) >= 0.0;
  }

  /** The mismatch note, comparing the total with the requested amount as a number. */
  function MismatchNote(total: real, requested: real): (shown: bool)
    ensures shown ==> total > 0.0
    ensures total > 0.0 ==> (shown <==> total != requested)
  {
    total > 0.0 && total != requested
  }

  /** What the amount input holds: a number (loaded from a request) or the text the user typed. */
  datatype InputValue = NumberValue(n: real) | TextValue(s: string)

  /** JavaScript's `!==`: values of different types are never strictly equal. */
  predicate StrictlyDifferent(total: real, v: InputValue) {
    match v
    case NumberValue(n) => n != total
    case TextValue(_) => true
  }

  /** The note exactly as the form computes it, against the raw input value. */
  function MismatchNoteAsWritten(total: real, v: InputValue): bool {
    total > 0.0 && StrictlyDifferent(total, v)
  }

  /** The numeric value of a string of decimal digits (what `Number` gives for such text). */
  function DigitsValue(s: string): (r: Option<nat>)
    ensures r.Some? ==> |s| > 0
  {
    if |s| == 0 || exists k | 0 <= k < |s| :: !('0' <= s[k] <= '9') then None
    else if |s| == 1 then Some(s[0] as int - '0' as int)
    else
      match DigitsValue(s[..|s| - 1])
      case None => None
      case Some(hi) => Some(10 * hi + (s[|s| - 1] as int - '0' as int))
  }

  /** For a number loaded into the input the as-written note is the intended one. */
  lemma MismatchAsWrittenOnNumbers(total: real, n: real)
    ensures MismatchNoteAsWritten(total, NumberValue(n)) == MismatchNote(total, n)
  {
  }

  /** Once the user types "500", a breakdown totalling 500 is still flagged as a mismatch. */
  lemma MismatchAsWrittenOnTypedText()
    ensures DigitsValue("500") == Some(500)
    ensures MismatchNoteAsWritten(500.0, TextValue("500"))
    ensures !MismatchNote(500.0, 500.0)
  {
    assert "500"[..2] == "50";
    assert "50"[..1] == "5";
  }
}

=== FILE: auth_email.dfy ===
/**
 * The `send-auth-email` edge function: the confirmation link built from the
 * auth hook's payload, the subject and template chosen by the action type,
 * and the response for the outcome of sending. The mail service's answer is
 * an input (`send`), and the deployment's project URL is a parameter.
 */
module AuthEmail {
  import opened Wrappers
  import opened Strings
  import opened Http

  datatype EmailData = EmailData(
    token: string,
    tokenHash: string,
    redirectTo: string,
    emailActionType: string,
    siteUrl: string)

  /** The hook's payload: the recipient and the data the link is built from. */
  datatype AuthEmailPayload = AuthEmailPayload(userEmail: string, emailData: EmailData)

  /** The request: its HTTP method and its parsed body, or the message of the parse error. */
  datatype Request = Request(httpMethod: string, body: Result<AuthEmailPayload, string>)

  const VerifyPath: string := "/auth/v1/verify"

  /**
   * The verification URL: the project URL (shown as "undefined" when unset),
   * the verify path, then the token hash, action type and redirect target as
   * query parameters, inserted as they are, without URL encoding.
   */
  function ConfirmLink(supabaseUrl: Option<string>, tokenHash: string, actionType: string, redirectTo: string): (link: string)
    ensures IsPrefix(supabaseUrl.GetOr("undefined") + VerifyPath + "?token=" + tokenHash, link)
    ensures |link| >= |redirectTo| && link[|link| - |redirectTo|..] == redirectTo
  {
    supabaseUrl.GetOr("undefined") + VerifyPath + "?token=" + tokenHash + "&type=" + actionType + "&redirect_to=" + redirectTo
  }

  /** The query string of the confirmation link. */
  function Query(tokenHash: string, actionType: string, redirectTo: string): string {
    "token=" + tokenHash + "&type=" + actionType + "&redirect_to=" + redirectTo
  }

  /** The link is the path, a '?', and the query. */
  lemma LinkIsPathAndQuery(supabaseUrl: Option<string>, tokenHash: string, actionType: string, redirectTo: string)
    ensures ConfirmLink(supabaseUrl, tokenHash, actionType, redirectTo)
      == (supabaseUrl.GetOr("undefined") + VerifyPath) + ['?'] + Query(tokenHash, actionType, redirectTo)
  {
  }

  /** The query is its three parameters joined by '&'. */
  lemma QueryIsParams(tokenHash: string, actionType: string, redirectTo: string)
    ensures Query(tokenHash, actionType, redirectTo)
      == ("token=" + tokenHash) + ['&'] + (("type=" + actionType) + ['&'] + ("redirect_to=" + redirectTo))
  {
  }

  /** Splitting the query on '&' gives back the three parameters. */
  lemma QueryReadsBack(tokenHash: string, actionType: string, redirectTo: string)
    requires '&' !in tokenHash && '&' !in actionType && '&' !in redirectTo
    ensures Split(Query(tokenHash, actionType, redirectTo), '&')
      == ["token=" + tokenHash, "type=" + actionType, "redirect_to=" + redirectTo]
  {
    QueryIsParams(tokenHash, actionType, redirectTo);
    var tokenParam, typeParam, redirectParam := "token=" + tokenHash, "type=" + actionType, "redirect_to=" + redirectTo;
    assert '&' !in tokenParam && '&' !in typeParam && '&' !in redirectParam;
    SplitAtFirst(tokenParam, typeParam + ['&'] + redirectParam, '&');
    SplitAtFirst(typeParam, redirectParam, '&');
    SplitWithoutSeparator(redirectParam, '&');
  }

  /**
   * When no '?' occurs in the project URL or the parameters, and no '&' inside
   * the parameters, the link reads back as its path and its three parameters,
   * in order.
   */
  lemma ConfirmLinkReadsBack(supabaseUrl: Option<string>, tokenHash: string, actionType: string, redirectTo: string)
    requires '?' !in supabaseUrl.GetOr("undefined")
    requires '?' !in tokenHash && '?' !in actionType && '?' !in redirectTo
    requires '&' !in tokenHash && '&' !in actionType && '&' !in redirectTo
    ensures var link := ConfirmLink(supabaseUrl, tokenHash, actionType, redirectTo);
      && Split(link, '?') == [supabaseUrl.GetOr("undefined") + VerifyPath, Query(tokenHash, actionType, redirectTo)]
      && Split(Split(link, '?')[1], '&') == ["token=" + tokenHash, "type=" + actionType, "redirect_to=" + redirectTo]
  {
    var base := supabaseUrl.GetOr("undefined") + VerifyPath;
    var query := Query(tokenHash, actionType, redirectTo);
    LinkIsPathAndQuery(supabaseUrl, tokenHash, actionType, redirectTo);
    QueryIsParams(tokenHash, actionType, redirectTo);
    assert '?' !in query;
    assert '?' !in base;
    SplitAtFirst(base, query, '?');
    SplitWithoutSeparator(query, '?');
    QueryReadsBack(tokenHash, actionType, redirectTo);
  }

  /** The three kinds of message the function sends. */
  datatype EmailKind = PasswordReset | Welcome | Verification

  /** The dispatch on `email_action_type`: the first matching branch decides. */
  function KindOf(actionType: string): (k: EmailKind)
    ensures k == PasswordReset <==> actionType == "recovery" || actionType == "magiclink"
    ensures k == Welcome <==> actionType == "signup" || actionType == "invite"
    ensures k == Verification <==> actionType !in {"recovery", "magiclink", "signup", "invite"}
  {
    if actionType == "recovery" || actionType == "magiclink" then PasswordReset
    else if actionType == "signup" || actionType == "invite" then Welcome
    else Verification
  }

  function Subject(k: EmailKind): (subject: string) {
    match k
    case PasswordReset => "Reset Your Password | Addis Lidet International Church"
    case Welcome => "Welcome to Addis Lidet International Church"
    case Verification => "Verify Your Email"
  }

  /** Different kinds of message never share a subject, so the subject identifies the branch taken. */
  lemma SubjectIdentifiesKind(k1: EmailKind, k2: EmailKind)
    ensures Subject(k1) == Subject(k2) <==> k1 == k2
  {
    if k1 != k2 {
      assert |Subject(k1)| != |Subject(k2)|;
    }
  }

  /** A template as markup interleaved with the places the confirmation link is inserted. */
  datatype Piece = Markup(text: string) | LinkHere

  /** The templates, with their markup reduced to the text around each insertion of the link. */
  function Template(k: EmailKind): seq<Piece> {
    match k
    case PasswordReset => [
      Markup("<h2>Reset Your Password</h2><a href=\""), LinkHere, Markup("\" class=\"btn\">Reset Password</a>")]
    case Welcome => [
      Markup("<h2>Welcome!</h2><a href=\""), LinkHere, Markup("\" class=\"btn\">Confirm Email</a>")]
    case Verification => [
      Markup("<h1>Email Verification</h1><a href=\""), LinkHere, Markup("\">Verify Email</a><p>"),
      LinkHere, Markup("</p>")]
  }

  /** The places the link is inserted. */
  function LinkCount(pieces: seq<Piece>): (n: nat)
    ensures n <= |pieces|
  {
    if |pieces| == 0 then 0 else (if pieces[0] == LinkHere then 1 else 0) + LinkCount(pieces[1..])
  }

  /** The template filled in with `link`. */
  function Render(pieces: seq<Piece>, link: string): string {
    if |pieces| == 0 then ""
    else (match pieces[0] case Markup(text) => text case LinkHere => link) + Render(pieces[1..], link)
  }

  lemma {:induction false} RenderConcat(a: seq<Piece>, b: seq<Piece>, link: string)
    ensures Render(a + b, link) == Render(a, link) + Render(b, link)
    decreases |a|
  {
    if |a| == 0 {
      assert a + b == b;
    } else {
      assert (a + b)[0] == a[0] && (a + b)[1..] == a[1..] + b;
      RenderConcat(a[1..], b, link);
    }
  }

  /** Each insertion point of a template puts the whole link into the rendered text at a known offset. */
  lemma LinkRenderedAt(pieces: seq<Piece>, k: nat, link: string)
    requires k < |pieces| && pieces[k] == LinkHere
    ensures OccursAt(Render(pieces, link), link, |Render(pieces[..k], link)|)
  {
    assert pieces == pieces[..k] + ([pieces[k]] + pieces[k + 1..]);
    RenderConcat(pieces[..k], [pieces[k]] + pieces[k + 1..], link);
    RenderConcat([pieces[k]], pieces[k + 1..], link);
    assert Render([pieces[k]], link) == link;
  }

  /** Two insertion points of the link give two non-overlapping copies of it. */
  lemma LinksDoNotOverlap(pieces: seq<Piece>, k1: nat, k2: nat, link: string)
    requires k1 < k2 <= |pieces| && pieces[k1] == LinkHere
    ensures |Render(pieces[..k1], link)| + |link| <= |Render(pieces[..k2], link)|
  {
    assert pieces[..k2] == pieces[..k1] + ([pieces[k1]] + pieces[k1 + 1..k2]);
    RenderConcat(pieces[..k1], [pieces[k1]] + pieces[k1 + 1..k2], link);
    RenderConcat([pieces[k1]], pieces[k1 + 1..k2], link);
    assert Render([pieces[k1]], link) == link;
  }

  /** Every template has the link at least once; the verification template has it twice. */
  lemma TemplateLinks(k: EmailKind)
    ensures LinkCount(Template(k)) == (if k == Verification then 2 else 1)
  {
    var t := Template(k);
    var n := |t|;
    assert LinkCount(t[n..]) == 0;
    assert LinkCount(t[n - 1..]) == 0 by { assert t[n - 1..][1..] == t[n..]; }
    assert LinkCount(t[n - 2..]) == 1 by { assert t[n - 2..][1..] == t[n - 1..]; }
    assert LinkCount(t[n - 3..]) == 1 by { assert t[n - 3..][1..] == t[n - 2..]; }
    if k == Verification {
      assert LinkCount(t[1..]) == 2 by { assert t[1..][1..] == t[n - 3..]; }
    }
  }

  /** Every rendered message contains the link. */
  lemma RenderedContainsLink(k: EmailKind, link: string)
    ensures Contains(Render(Template(k), link), link)
  {
    LinkRenderedAt(Template(k), 1, link);
  }

  /** The verification message carries the link twice, at non-overlapping places: as the button and as plain text. */
  lemma VerificationCarriesLinkTwice(link: string)
    ensures exists i, j :: (i + |link| <= j && OccursAt(Render(Template(Verification), link), link, i)
      && OccursAt(Render(Template(Verification), link), link, j))
  {
    var t := Template(Verification);
    LinkRenderedAt(t, 1, link);
    LinkRenderedAt(t, 3, link);
    LinksDoNotOverlap(t, 1, 3, link);
  }

  const Sender: string := "Addis Lidet International Church <team@addislidet.info>"

  datatype Message = Message(from: string, to: seq<string>, subject: string, html: string)

  /** What the mail service answers: the sent message's data, or an error with its message. */
  datatype SendResult = Sent(data: string) | SendError(message: string)

  datatype Outcome = Outcome(response: Response<string>, sent: Option<Message>)

  /** The message composed for a payload. */
  function Compose(p: AuthEmailPayload, supabaseUrl: Option<string>): (m: Message)
    ensures m.from == Sender && m.to == [p.userEmail]
    ensures m.subject == Subject(KindOf(p.emailData.emailActionType))
    ensures Contains(m.html, ConfirmLink(supabaseUrl, p.emailData.tokenHash, p.emailData.emailActionType, p.emailData.redirectTo))
  {
    var d := p.emailData;
    var link := ConfirmLink(supabaseUrl, d.tokenHash, d.emailActionType, d.redirectTo);
    var kind := KindOf(d.emailActionType);
    RenderedContainsLink(kind, link);
    Message(Sender, [p.userEmail], Subject(kind), Render(Template(kind), link))
  }

  /** The whole handler. */
  function Handle(req: Request, supabaseUrl: Option<string>, send: Message -> SendResult): (o: Outcome)
    ensures req.httpMethod == "OPTIONS" ==> o == Outcome(Response(200, Cors, NoBody), None)
    ensures req.httpMethod != "OPTIONS" && req.body.Failure? ==> o == Outcome(JsonError(500, req.body.error), None)
    ensures req.httpMethod != "OPTIONS" && req.body.Success? ==>
      && o.sent == Some(Compose(req.body.value, supabaseUrl))
      && (o.response.status == 200 <==> send(o.sent.value).Sent?)
      && (send(o.sent.value).Sent? ==> o.response == Response(200, JsonHeaders, Payload(send(o.sent.value).data)))
      && (send(o.sent.value).SendError? ==> o.response == JsonError(500, send(o.sent.value).message))
    ensures o.response.status == 200 || o.response.status == 500
  {
    if req.httpMethod == "OPTIONS" then Outcome(Response(200, Cors, NoBody), None)
    else match req.body
      case Failure(message) => Outcome(JsonError(500, message), None)
      case Success(p) =>
        var m := Compose(p, supabaseUrl);
        match send(m)
        case Sent(data) => Outcome(Response(200, JsonHeaders, Payload(data)), Some(m))
        case SendError(message) => Outcome(JsonError(500, message), Some(m))
  }

  /** A password-recovery request sends the reset message, with the link, to the requesting user only. */
  lemma RecoverySendsReset(p: AuthEmailPayload, supabaseUrl: Option<string>, send: Message -> SendResult)
    requires p.emailData.emailActionType in {"recovery", "magiclink"}
    ensures var o := Handle(Request("POST", Success(p)), supabaseUrl, send);
      && o.sent.Some? && o.sent.value.to == [p.userEmail]
      && o.sent.value.subject == "Reset Your Password | Addis Lidet International Church"
  {
  }
}

=== FILE: create_user.dfy ===
/**
 * The `create-user` edge function: an ordered cascade of authentication,
 * input and permission checks, then either a new account or a membership
 * for an existing profile. Every database and auth call is replaced by the
 * answer it would give (`Backend`); the writes it issues are returned as a
 * trace of effects.
 */
module CreateUser {
  import opened Wrappers
  import opened Strings
  import opened Http

  /** The JSON body's fields; each may be absent. */
  datatype Fields = Fields(
    email: Option<string>,
    password: Option<string>,
    fullName: Option<string>,
    ministryName: Option<string>,
    role: Option<string>,
    organizationId: Option<string>)

  /** The request: its HTTP method, its Authorization header, and its body (or the parse error). */
  datatype Request = Request(httpMethod: string, authorization: Option<string>, body: Result<Fields, string>)

  /** What the auth service and the database would answer. */
  datatype Backend = Backend(
    userForToken: string -> Option<string>,
    isAdminOf: (string, string) -> bool,
    profileByEmail: string -> Option<string>,
    isMemberOf: (string, string) -> bool,
    createdAuthUser: Result<Option<string>, string>,
    profileUpsertFails: bool,
    membershipInsertFails: bool)

  /** The writes the function performs, in order. */
  datatype Effect =
    | CreateAuthUser(email: string, password: string, fullName: string, emailConfirm: bool)
    | UpsertProfile(id: string, email: string, fullName: string, ministryName: Option<string>, defaultOrganizationId: string)
    | InsertMembership(userId: string, organizationId: string, role: string, isPrimary: bool)

  datatype CreatedUser = CreatedUser(id: string, email: string)

  datatype Outcome = Outcome(response: Response<CreatedUser>, effects: seq<Effect>)

  /** A JavaScript-truthy string field: present and non-empty. */
  predicate Present(field: Option<string>) {
    field.Some? && field.value != ""
  }

  /** `ministry_name || null`. */
  function OrNull(field: Option<string>): (r: Option<string>)
    ensures r.Some? <==> Present(field)
    ensures r.Some? ==> r == field
  {
    if Present(field) then field else None
  }

  const MinPasswordLength: nat := 6

  /** The bearer token: the header with its first "Bearer " removed. */
  function Token(header: string): string {
    ReplaceFirst(header, "Bearer ", "")
  }

  lemma TokenOfBearerHeader(t: string)
    ensures Token("Bearer " + t) == t
  {
    ReplaceFirstOfPrefix("Bearer ", t);
  }

  predicate AllPresent(f: Fields) {
    Present(f.email) && Present(f.password) && Present(f.fullName) && Present(f.role) && Present(f.organizationId)
  }

  /** The caller behind the request's token, when the header is present and non-empty. */
  function Caller(req: Request, b: Backend): Option<string> {
    if !Present(req.authorization) then None else b.userForToken(Token(req.authorization.value))
  }

  /** Everything the function checks before it writes anything. */
  predicate Authorized(req: Request, b: Backend) {
    && req.httpMethod != "OPTIONS"
    && Caller(req, b).Some?
    && req.body.Success?
    && AllPresent(req.body.value)
    && b.isAdminOf(Caller(req, b).value, req.body.value.organizationId.value)
    && HasChar(req.body.value.email.value, '@')
    && |req.body.value.password.value| >= MinPasswordLength
  }

  /** The membership insert and final response, shared by both account branches. */
  function Enrol(userId: string, f: Fields, before: seq<Effect>, b: Backend): (o: Outcome)
    requires AllPresent(f)
    ensures o.effects == before + [InsertMembership(userId, f.organizationId.value, f.role.value, true)]
    ensures o.response.status == 200 <==> !b.membershipInsertFails
    ensures !b.membershipInsertFails ==> o.response.body == Payload(CreatedUser(userId, f.email.value))
    ensures b.membershipInsertFails ==> o.response == JsonError(500, "User created but organization assignment failed")
  {
    var effects := before + [InsertMembership(userId, f.organizationId.value, f.role.value, true)];
    if b.membershipInsertFails then Outcome(JsonError(500, "User created but organization assignment failed"), effects)
    else Outcome(Response(200, JsonHeaders, Payload(CreatedUser(userId, f.email.value))), effects)
  }

  /** Once authorised: reuse an existing profile or create the account and profile, then enrol. */
  function Provision(f: Fields, b: Backend): (o: Outcome)
    requires AllPresent(f)
    ensures b.profileByEmail(f.email.value).Some? ==>
      if b.isMemberOf(b.profileByEmail(f.email.value).value, f.organizationId.value) then
        o == Outcome(JsonError(400, "User is already a member of this organization"), [])
      else o.effects == [InsertMembership(b.profileByEmail(f.email.value).value, f.organizationId.value, f.role.value, true)]
    ensures b.profileByEmail(f.email.value).None? ==>
      |o.effects| >= 1 && o.effects[0] == CreateAuthUser(f.email.value, f.password.value, f.fullName.value, true)
    // the new-account branch: each failure stops with its answer, and success writes the profile, then enrols
    ensures b.profileByEmail(f.email.value).None? && b.createdAuthUser.Failure? ==>
      o == Outcome(JsonError(400, b.createdAuthUser.error),
                   [CreateAuthUser(f.email.value, f.password.value, f.fullName.value, true)])
    ensures b.profileByEmail(f.email.value).None? && b.createdAuthUser == Success(None) ==>
      o == Outcome(JsonError(500, "Failed to create user"),
                   [CreateAuthUser(f.email.value, f.password.value, f.fullName.value, true)])
    ensures b.profileByEmail(f.email.value).None? && b.createdAuthUser.Success? && b.createdAuthUser.value.Some? ==>
      var id := b.createdAuthUser.value.value;
      var written := [CreateAuthUser(f.email.value, f.password.value, f.fullName.value, true),
                      UpsertProfile(id, f.email.value, f.fullName.value, OrNull(f.ministryName), f.organizationId.value)];
      if b.profileUpsertFails then o == Outcome(JsonError(500, "User created but profile update failed"), written)
      else o == Enrol(id, f, written, b)
    ensures b.profileByEmail(f.email.value).Some? && !b.isMemberOf(b.profileByEmail(f.email.value).value, f.organizationId.value) ==>
      o == Enrol(b.profileByEmail(f.email.value).value, f, [], b)
    ensures o.response.status == 200 ==>
      o.effects != [] && o.effects[|o.effects| - 1].InsertMembership? && o.effects[|o.effects| - 1].isPrimary
  {
    var email := f.email.value;
    var org := f.organizationId.value;
    match b.profileByEmail(email)
    case Some(existing) =>
      if b.isMemberOf(existing, org) then Outcome(JsonError(400, "User is already a member of this organization"), [])
      else Enrol(existing, f, [], b)
    case None =>
      var create := [CreateAuthUser(email, f.password.value, f.fullName.value, true)];
      match b.createdAuthUser
      case Failure(message) => Outcome(JsonError(400, message), create)
      case Success(None) => Outcome(JsonError(500, "Failed to create user"), create)
      case Success(Some(id)) =>
        var written := create + [UpsertProfile(id, email, f.fullName.value, OrNull(f.ministryName), org)];
        if b.profileUpsertFails then Outcome(JsonError(500, "User created but profile update failed"), written)
        else Enrol(id, f, written, b)
  }

  /** The whole handler. */
  function Handle(req: Request, b: Backend): (o: Outcome)
    ensures req.httpMethod == "OPTIONS" ==> o == Outcome(Response(200, Cors, Text("ok")), [])
    ensures req.httpMethod != "OPTIONS" && !Present(req.authorization) ==>
      o == Outcome(JsonError(401, "Missing authorization header"), [])
    ensures req.httpMethod != "OPTIONS" && Present(req.authorization) && Caller(req, b).None? ==>
      o == Outcome(JsonError(401, "Unauthorized"), [])
    ensures req.httpMethod != "OPTIONS" && Caller(req, b).Some? && req.body.Failure? ==>
      o == Outcome(JsonError(500, req.body.error), [])
    ensures req.httpMethod != "OPTIONS" && Caller(req, b).Some? && req.body.Success? && !AllPresent(req.body.value) ==>
      o == Outcome(JsonError(400, "Missing required fields"), [])
    ensures (req.httpMethod != "OPTIONS" && Caller(req, b).Some? && req.body.Success? && AllPresent(req.body.value)
      && !b.isAdminOf(Caller(req, b).value, req.body.value.organizationId.value)) ==>
      o == Outcome(JsonError(403, "Insufficient permissions for this organization"), [])
    ensures (req.httpMethod != "OPTIONS" && Caller(req, b).Some? && req.body.Success? && AllPresent(req.body.value)
      && b.isAdminOf(Caller(req, b).value, req.body.value.organizationId.value)) ==>
      && (!HasChar(req.body.value.email.value, '@') ==> o == Outcome(JsonError(400, "Invalid email address"), []))
      && (HasChar(req.body.value.email.value, '@') && |req.body.value.password.value| < MinPasswordLength ==>
            o == Outcome(JsonError(400, "Password must be at least 6 characters"), []))
    ensures Authorized(req, b) ==> o == Provision(req.body.value, b)
    ensures o.effects != [] ==> Authorized(req, b)
  {
    if req.httpMethod == "OPTIONS" then Outcome(Response(200, Cors, Text("ok")), [])
    else if !Present(req.authorization) then Outcome(JsonError(401, "Missing authorization header"), [])
    else match Caller(req, b)
      case None => Outcome(JsonError(401, "Unauthorized"), [])
      case Some(caller) =>
        match req.body
        case Failure(message) => Outcome(JsonError(500, message), [])
        case Success(f) =>
          if !AllPresent(f) then Outcome(JsonError(400, "Missing required fields"), [])
          else if !b.isAdminOf(caller, f.organizationId.value) then
            Outcome(JsonError(403, "Insufficient permissions for this organization"), [])
          else if !HasChar(f.email.value, '@') then Outcome(JsonError(400, "Invalid email address"), [])
          else if |f.password.value| < MinPasswordLength then
            Outcome(JsonError(400, "Password must be at least 6 characters"), [])
          else Provision(f, b)
  }

  /** A 200 answer means every check passed and the caller's target organisation gained the member. */
  lemma SuccessMeansAuthorized(req: Request, b: Backend)
    requires Handle(req, b).response.status == 200 && req.httpMethod != "OPTIONS"
    ensures Authorized(req, b) && Present(req.authorization)
    ensures var o := Handle(req, b);
      o.effects[|o.effects| - 1] == InsertMembership(o.response.body.value.id, req.body.value.organizationId.value, req.body.value.role.value, true)
      && o.response.body.value.email == req.body.value.email.value
  {
  }

  /** An existing profile that is not yet a member gets only the membership: no account is created. */
  lemma ExistingProfileGetsMembershipOnly(req: Request, b: Backend)
    requires Authorized(req, b)
    requires b.profileByEmail(req.body.value.email.value).Some?
    ensures forall e :: e in Handle(req, b).effects ==> e.InsertMembership?
  {
  }

  /** An empty Authorization header is as good as none: 401 and no write, whatever the backend answers. */
  lemma EmptyHeaderIsMissing(verb: string, body: Result<Fields, string>, b: Backend)
    requires verb != "OPTIONS"
    ensures Handle(Request(verb, Some(""), body), b) == Outcome(JsonError(401, "Missing authorization header"), [])
  {
  }

  /** With every backend call succeeding, an authorised request for a new email creates the user. */
  lemma NewUserSucceeds(req: Request, b: Backend, id: string)
    requires Authorized(req, b)
    requires b.profileByEmail(req.body.value.email.value).None?
    requires b.createdAuthUser == Success(Some(id)) && !b.profileUpsertFails && !b.membershipInsertFails
    ensures Handle(req, b).response == Response(200, JsonHeaders, Payload(CreatedUser(id, req.body.value.email.value)))
    ensures |Handle(req, b).effects| == 3
  {
  }
}

=== FILE: http.dfy ===
/** The response shapes shared by the three edge functions. */
module Http {

  /** What a response carries: nothing, plain text, `{ error }` JSON, or a success JSON payload. */
  datatype Body<+T> = NoBody | Text(text: string) | ErrorJson(message: string) | Payload(value: T)

  datatype Response<+T> = Response(status: int, headers: map<string, string>, body: Body<T>)

  /** The CORS headers every edge function attaches. */
  const Cors: map<string, string> := map[
    "Access-Control-Allow-Origin" := "*",
    "Access-Control-Allow-Headers" := "authorization, x-client-info, apikey, content-type"
  ]

  /** CORS headers plus the JSON content type. */
  const JsonHeaders: map<string, string> := Cors["Content-Type" := "application/json"]

  /** A JSON `{ error: message }` response with the given status. */
  function JsonError<T>(status: int, message: string): (r: Response<T>)
    ensures r.status == status && r.body == ErrorJson(message)
    ensures r.headers.Keys == Cors.Keys + {"Content-Type"}
    ensures r.headers["Content-Type"] == "application/json"
    ensures forall k | k in Cors :: r.headers[k] == Cors[k]
  {
    Response(status, JsonHeaders, ErrorJson(message))
  }
}

=== FILE: import_users.dfy ===
/**
 * The `import-users` edge function: one account per record of the payload,
 * tallied into success and failure counts with one message per failure.
 * The auth service's answer for each record is an input (`Attempt`).
 */
module ImportUsers {
  import opened Wrappers
  import opened Strings
  import opened Http

  /** A JSON field that is interpolated into a message: missing, `null`, or a string. */
  datatype FieldValue = Undefined | Null | Str(text: string)

  datatype UserRecord = UserRecord(
    ministryName: Option<string>,
    fullName: FieldValue,
    email: Option<string>,
    phoneNumber: Option<string>)

  /** The payload's `users` field: absent or falsy, present but not an array, or the records. */
  datatype UsersField = Missing | NotAnArray | Records(records: seq<UserRecord>)

  datatype Request = Request(httpMethod: string, body: Result<UsersField, string>)

  /**
   * What creating the account for one record yields: an auth error with its
   * message, a result (with or without a user, and whether the profile upsert
   * then failed), or a rejected call, with its message when it is an `Error`.
   */
  datatype Attempt =
    | AuthError(message: string)
    | Created(user: Option<string>, profileUpsertFails: bool)
    | Threw(thrown: Option<string>)

  datatype Results = Results(success: nat, failed: nat, errors: seq<string>)

  /** The tallies, plus the emails an account was attempted for. */
  datatype Run = Run(results: Results, attempted: seq<string>)

  const BlockedEmail: string := "alicmd.@gmail.com"

  /** The record filter: an email is required, must contain "@", and must not be the one known-bad address. */
  predicate ValidEmail(email: Option<string>) {
    email.Some? && email.value != "" && HasChar(email.value, '@') && email.value != BlockedEmail
  }

  /** A template-literal interpolation: a missing field shows as "undefined", `null` as "null". */
  function Show(v: FieldValue): string {
    match v
    case Undefined => "undefined"
    case Null => "null"
    case Str(text) => text
  }

  /** The message for a failed account creation. */
  function AttemptError(email: string, message: string): (msg: string)
    ensures (Contains(message, "already registered") || Contains(message, "duplicate")) ==> msg == email + " already exists"
    ensures !(Contains(message, "already registered") || Contains(message, "duplicate")) ==> msg == email + ": " + message
  {
    if Contains(message, "already registered") || Contains(message, "duplicate") then email + " already exists"
    else email + ": " + message
  }

  /** One iteration of the loop over the records. */
  function Step(acc: Run, rec: UserRecord, attempt: Attempt): (r: Run)
    ensures !ValidEmail(rec.email) ==>
      r == Run(Results(acc.results.success, acc.results.failed + 1,
                       acc.results.errors + ["Invalid email for " + Show(rec.fullName)]), acc.attempted)
    ensures ValidEmail(rec.email) ==> r.attempted == acc.attempted + [rec.email.value]
    ensures ValidEmail(rec.email) && attempt.Created? ==>
      r.results == (if attempt.user.Some? then acc.results.(success := acc.results.success + 1) else acc.results)
    ensures ValidEmail(rec.email) && attempt.AuthError? ==>
      r.results == Results(acc.results.success, acc.results.failed + 1,
                           acc.results.errors + [AttemptError(rec.email.value, attempt.message)])
    ensures ValidEmail(rec.email) && attempt.Threw? ==>
      r.results == Results(acc.results.success, acc.results.failed + 1,
                           acc.results.errors + [rec.email.value + ": " + attempt.thrown.GetOr("Failed")])
  {
    if !ValidEmail(rec.email) then
      Run(Results(acc.results.success, acc.results.failed + 1,
                  acc.results.errors + ["Invalid email for " + Show(rec.fullName)]), acc.attempted)
    else
      var email := rec.email.value;
      var tried := acc.attempted + [email];
      var res := acc.results;
      match attempt
      case AuthError(message) =>
        Run(Results(res.success, res.failed + 1, res.errors + [AttemptError(email, message)]), tried)
      case Created(user, _) =>
        Run(if user.Some? then res.(success := res.success + 1) else res, tried)
      case Threw(message) =>
        Run(Results(res.success, res.failed + 1, res.errors + [email + ": " + message.GetOr("Failed")]), tried)
  }

  /** Each step adds at most one to the tallies and keeps errors and failures paired. */
  lemma StepCounts(acc: Run, rec: UserRecord, attempt: Attempt)
    ensures var r := Step(acc, rec, attempt);
      && r.results.success + r.results.failed <= acc.results.success + acc.results.failed + 1
      && r.results.success >= acc.results.success && r.results.failed >= acc.results.failed
      && |r.results.errors| - r.results.failed == |acc.results.errors| - acc.results.failed
  {
  }

  /** The state after the first `n` records, with `attempts(k)` the answer for record `k`. */
  function Tally(users: seq<UserRecord>, attempts: nat -> Attempt, n: nat): (r: Run)
    requires n <= |users|
    ensures |r.results.errors| == r.results.failed
    ensures r.results.success + r.results.failed <= n
    ensures forall k :: 0 <= k < |r.attempted| ==> ValidEmail(Some(r.attempted[k]))
    ensures |r.attempted| <= n
  {
    if n == 0 then Run(Results(0, 0, []), [])
    else
      var prev := Tally(users, attempts, n - 1);
      StepCounts(prev, users[n - 1], attempts(n - 1));
      Step(prev, users[n - 1], attempts(n - 1))
  }

  /** The `for ... of` loop, accumulating the same state; it answers the tallies. */
  method ImportAll(users: seq<UserRecord>, attempts: nat -> Attempt) returns (results: Results)
    ensures results == Tally(users, attempts, |users|).results
    ensures |results.errors| == results.failed
    ensures results.success + results.failed <= |users|
  {
    var run := Run(Results(0, 0, []), []);
    var i := 0;
    while i < |users|
      invariant 0 <= i <= |users|
      invariant run == Tally(users, attempts, i)
    {
      run := Step(run, users[i], attempts(i));
      i := i + 1;
    }
    results := run.results;
  }

  /** The emails of the first `n` records that pass the filter, in record order. */
  function ValidEmails(users: seq<UserRecord>, n: nat): seq<string>
    requires n <= |users|
  {
    if n == 0 then []
    else ValidEmails(users, n - 1) + (if ValidEmail(users[n - 1].email) then [users[n - 1].email.value] else [])
  }

  /**
   * Exactly the records with a valid email are sent to the auth service, in
   * order, so their number is the number of valid records.
   */
  lemma {:induction false} InvalidNeverAttempted(users: seq<UserRecord>, attempts: nat -> Attempt, n: nat)
    requires n <= |users|
    ensures Tally(users, attempts, n).attempted == ValidEmails(users, n)
    ensures |Tally(users, attempts, n).attempted| == |set k | 0 <= k < n && ValidEmail(users[k].email)|
  {
    if n > 0 {
      InvalidNeverAttempted(users, attempts, n - 1);
      var before := set k | 0 <= k < n - 1 && ValidEmail(users[k].email);
      var after := set k | 0 <= k < n && ValidEmail(users[k].email);
      if ValidEmail(users[n - 1].email) {
        assert after == before + {n - 1};
      } else {
        assert after == before;
      }
    }
  }

  /** The whole handler. */
  function Handle(req: Request, attempts: nat -> Attempt): (resp: Response<Results>)
    ensures req.httpMethod == "OPTIONS" ==> resp == Response(200, Cors, Text("ok"))
    ensures req.httpMethod != "OPTIONS" && req.body.Failure? ==> resp == JsonError(400, req.body.error)
    ensures req.httpMethod != "OPTIONS" && req.body.Success? && !req.body.value.Records? ==>
      resp == JsonError(400, "Invalid users data")
    ensures req.httpMethod != "OPTIONS" && req.body.Success? && req.body.value.Records? ==>
      resp == Response(200, JsonHeaders, Payload(Tally(req.body.value.records, attempts, |req.body.value.records|).results))
      && |resp.body.value.errors| == resp.body.value.failed
      && resp.body.value.success + resp.body.value.failed <= |req.body.value.records|
  {
    if req.httpMethod == "OPTIONS" then Response(200, Cors, Text("ok"))
    else match req.body
      case Failure(message) => JsonError(400, message)
      case Success(Missing) => JsonError(400, "Invalid users data")
      case Success(NotAnArray) => JsonError(400, "Invalid users data")
      case Success(Records(users)) =>
        Response(200, JsonHeaders, Payload(Tally(users, attempts, |users|).results))
  }

  /** A record without an email and with a `null` name is reported as "Invalid email for null". */
  lemma NullNameReported(acc: Run, attempt: Attempt)
    ensures Step(acc, UserRecord(None, Null, None, None), attempt).results.errors
      == acc.results.errors + ["Invalid email for null"]
  {
    assert Show(Null) == "null";
    assert "Invalid email for " + "null" == "Invalid email for null";
  }

  /** A profile upsert that fails still counts the record as a success. */
  lemma ProfileFailureStillSucceeds(rec: UserRecord, id: string)
    requires ValidEmail(rec.email)
    ensures Step(Run(Results(0, 0, []), []), rec, Created(Some(id), true)).results == Results(1, 0, [])
  {
  }

  /** A duplicate registration is reported as already existing. */
  lemma DuplicateReported()
    ensures AttemptError("a@b.c", "User already registered") == "a@b.c already exists"
    ensures AttemptError("a@b.c", "timeout") == "a@b.c: timeout"
  {
    assert OccursAt("User already registered", "already registered", 5);
    assert !Contains("timeout", "already registered");
    assert !Contains("timeout", "duplicate");
  }
}

=== FILE: metrics.dfy ===
/**
 * The dashboard metrics of the budget page: expense-status buckets, the
 * zero-guarded rates, the average expense, the health classification and
 * the balance subtitle. Amounts and rates are exact reals.
 */
module BudgetMetrics {

  /**
   * The statuses an expense request can be in. Any other stored text is
   * `OtherStatus`, whose `name` is never one of the eight known status names.
   */
  datatype ExpenseStatus =
    | Draft
    | PendingLeader
    | PendingTreasury
    | PendingFinance
    | LeaderApproved
    | TreasuryApproved
    | LeaderDenied
    | TreasuryDenied
    | OtherStatus(name: string)

  datatype Expense = Expense(status: ExpenseStatus, amount: real)

  /** The organisation-wide figures the grid receives. */
  datatype Summary = Summary(
    totalAllocated: real,
    totalSpent: real,
    totalPending: real,
    totalRemaining: real,
    fiscalYearName: string)

  const PendingStatuses: set<ExpenseStatus> := {PendingLeader, PendingTreasury, PendingFinance}
  const CompletedStatuses: set<ExpenseStatus> := {TreasuryApproved, LeaderApproved}
  const DeniedStatuses: set<ExpenseStatus> := {LeaderDenied, TreasuryDenied}

  /** The statuses of a list of expenses, in order. */
  function Statuses(expenses: seq<Expense>): (r: seq<ExpenseStatus>)
    ensures |r| == |expenses|
    ensures forall k :: 0 <= k < |expenses| ==> r[k] == expenses[k].status
  {
    seq(|expenses|, k requires 0 <= k < |expenses| => expenses[k].status)
  }

  /** `filter` by status: keeps, in order, exactly the statuses in `bucket`, each as often as it occurs. */
  function Filter(s: seq<ExpenseStatus>, bucket: set<ExpenseStatus>): (r: seq<ExpenseStatus>)
    ensures |r| <= |s|
    ensures forall x :: x in r ==> x in bucket
  {
    if |s| == 0 then []
    else (if s[0] in bucket then [s[0]] else []) + Filter(s[1..], bucket)
  }

  /** The filter keeps each status of the bucket exactly as often as it occurs, and nothing else. */
  lemma {:induction false} FilterMultiplicity(s: seq<ExpenseStatus>, bucket: set<ExpenseStatus>, x: ExpenseStatus)
    ensures multiset(Filter(s, bucket))[x] == (if x in bucket then multiset(s)[x] else 0)
  {
    if |s| > 0 {
      assert s == [s[0]] + s[1..];
      FilterMultiplicity(s[1..], bucket, x);
    }
  }

  /** The number of expenses whose status lies in `bucket`. */
  function Count(s: seq<ExpenseStatus>, bucket: set<ExpenseStatus>): nat {
    |Filter(s, bucket)|
  }

  /** Counting two disjoint buckets separately adds up to counting their union. */
  lemma {:induction false} CountDisjointUnion(s: seq<ExpenseStatus>, a: set<ExpenseStatus>, b: set<ExpenseStatus>)
    requires a !! b
    ensures Count(s, a) + Count(s, b) == Count(s, a + b)
  {
    if |s| > 0 {
      CountDisjointUnion(s[1..], a, b);
    }
  }

  lemma BucketsDisjoint()
    ensures PendingStatuses !! CompletedStatuses
    ensures PendingStatuses !! DeniedStatuses
    ensures CompletedStatuses !! DeniedStatuses
  {
  }

  /** Every expense lands in at most one bucket, so the three counts never exceed the total. */
  lemma BucketsBounded(s: seq<ExpenseStatus>)
    ensures Count(s, PendingStatuses) + Count(s, CompletedStatuses) + Count(s, DeniedStatuses) <= |s|
  {
    CountDisjointUnion(s, PendingStatuses, CompletedStatuses);
    CountDisjointUnion(s, PendingStatuses + CompletedStatuses, DeniedStatuses);
  }

  /** Budget utilisation in percent, 0 when nothing is allocated. */
  function Utilization(summary: Summary): (u: real)
    ensures summary.totalAllocated <= 0.0 ==> u == 0.0
    ensures summary.totalAllocated > 0.0 ==> u * summary.totalAllocated == summary.totalSpent * 100.0
    ensures summary.totalAllocated > 0.0 && 0.0 <= summary.totalSpent <= summary.totalAllocated ==> 0.0 <= u <= 100.0
  {
    if summary.totalAllocated > 0.0 then
      QuotientAtMostOne(summary.totalSpent, summary.totalAllocated);
      summary.totalSpent / summary.totalAllocated * 100.0
    else 0.0
  }

  /** A quotient by a positive divisor undoes the multiplication, and lies in 0..1 for a dividend within 0..divisor. */
  lemma QuotientAtMostOne(a: real, b: real)
    requires 0.0 < b
    ensures a / b * b == a
    ensures 0.0 <= a <= b ==> 0.0 <= a / b <= 1.0
  {
    assert a / b * b == a;
  }

  /** `part / whole * 100` for counts with `part <= whole`. */
  function Percent(part: nat, whole: nat): (p: real)
    requires 0 < whole && part <= whole
    ensures p * whole as real == part as real * 100.0
    ensures 0.0 <= p <= 100.0
  {
    var ratio := part as real / whole as real;
    QuotientAtMostOne(part as real, whole as real);
    ratio * 100.0
  }

  /** The share of expenses that completed, in percent, 0 with no expenses. */
  function CompletionRate(s: seq<ExpenseStatus>): (rate: real)
    ensures |s| == 0 ==> rate == 0.0
    ensures |s| > 0 ==> rate * |s| as real == Count(s, CompletedStatuses) as real * 100.0
    ensures 0.0 <= rate <= 100.0
  {
    if |s| > 0 then
      var completed := Count(s, CompletedStatuses);
      assert completed <= |s|;
      Percent(completed, |s|)
    else 0.0
  }

  /** The share of non-denied expenses that are no longer pending, in percent. */
  function ApprovalRate(s: seq<ExpenseStatus>): (rate: real)
    ensures |s| - Count(s, DeniedStatuses) == 0 ==> rate == 0.0
    ensures |s| - Count(s, DeniedStatuses) > 0 ==>
      rate * (|s| - Count(s, DeniedStatuses)) as real
        == (|s| - Count(s, DeniedStatuses) - Count(s, PendingStatuses)) as real * 100.0
    ensures 0.0 <= rate <= 100.0
  {
    var total := |s|;
    var denied := Count(s, DeniedStatuses);
    var pending := Count(s, PendingStatuses);
    BucketsBounded(s);
    if total - denied > 0 then
      Percent(total - denied - pending, total - denied)
    else 0.0
  }

  /** Budget health on the utilisation percentage. */
  datatype Health = Excellent | Good | Warning | Over

  function Classify(u: real): (h: Health)
    ensures h == Over <==> u > 100.0
    ensures h == Warning <==> 90.0 < u <= 100.0
    ensures h == Good <==> 75.0 < u <= 90.0
    ensures h == Excellent <==> u <= 75.0
  {
    if u > 100.0 then Over else if u > 90.0 then Warning else if u > 75.0 then Good else Excellent
  }

  /** The severity order of the health levels. */
  function Severity(h: Health): nat {
    match h
    case Excellent => 0
    case Good => 1
    case Warning => 2
    case Over => 3
  }

  /** More utilisation never gives a healthier classification. */
  lemma ClassifyMonotone(u: real, v: real)
    requires u <= v
    ensures Severity(Classify(u)) <= Severity(Classify(v))
  {
  }

  /** The "Available Balance" subtitle. */
  function BalanceSubtitle(remaining: real): (subtitle: string)
    ensures subtitle == "Over budget" <==> remaining < 0.0
    ensures subtitle == "Remaining funds" <==> remaining >= 0.0
  {
    if remaining < 0.0 then "Over budget" else "Remaining funds"
  }

  lemma ProductNonNegative(x: real, y: real)
    requires 0.0 <= x && 0.0 <= y
    ensures 0.0 <= x * y
  {
  }

  /**
   * When the remaining balance is the allocation less the spending, the
   * subtitle says "Over budget" exactly when the health card says "over".
   */
  lemma OverBudgetMatchesHealth(summary: Summary)
    requires summary.totalAllocated > 0.0
    requires summary.totalRemaining == summary.totalAllocated - summary.totalSpent
    ensures BalanceSubtitle(summary.totalRemaining) == "Over budget" <==> Classify(Utilization(summary)) == Over
  {
    var u := Utilization(summary);
    var a := summary.totalAllocated;
    assert u * a == summary.totalSpent * 100.0;
    if u > 100.0 {
      assert u * a > 100.0 * a;
      assert summary.totalSpent > a;
    } else {
      ProductNonNegative(100.0 - u, a);
      assert (100.0 - u) * a == 100.0 * a - u * a;
      assert summary.totalSpent * 100.0 <= a * 100.0;
    }
  }

  // ---------------------------------------------------------------------
  // Average expense

  /** A JavaScript number, as far as the average needs one. */
  datatype JsNumber = Finite(v: real) | PositiveInfinity | NegativeInfinity | NaN

  /** IEEE division by zero: infinite for a non-zero dividend, NaN for zero. */
  function Divide(a: real, b: real): (q: JsNumber)
    ensures b != 0.0 ==> q == Finite(a / b)
    ensures b == 0.0 ==> (q == PositiveInfinity <==> a > 0.0) && (q == NegativeInfinity <==> a < 0.0) && (q == NaN <==> a == 0.0)
  {
    if b != 0.0 then Finite(a / b) else if a > 0.0 then PositiveInfinity else if a < 0.0 then NegativeInfinity else NaN
  }

  /** `Math.round`: to the nearest integer, halves rounding up. */
  function RoundHalfUp(x: real): (n: int)
    ensures x - 0.5 < n as real <= x + 0.5
  {
    (x + 0.5).Floor
  }

  function Round(n: JsNumber): JsNumber {
    if n.Finite? then Finite(RoundHalfUp(n.v) as real) else n
  }

  /** `n || 0`: NaN and zero become 0, everything else is kept. */
  function OrZero(n: JsNumber): (r: JsNumber)
    ensures r != NaN
    ensures n != NaN ==> r == n
  {
    if n == NaN then Finite(0.0) else n
  }

  /** The average exactly as the grid computes it: spent over the completed count. */
  function AverageExpenseAsWritten(s: seq<ExpenseStatus>, spent: real): JsNumber {
    if |s| > 0 then OrZero(Round(Divide(spent, Count(s, CompletedStatuses) as real))) else Finite(0.0)
  }

  /** A positive spent total with no completed expense shows an infinite average. */
  lemma AverageExpenseUnguarded()
    ensures AverageExpenseAsWritten([PendingLeader], 500.0) == PositiveInfinity
  {
    assert Filter([PendingLeader], CompletedStatuses) == [];
  }

  /** The average with the zero-completed case guarded, as the "No completed expenses" subtitle intends. */
  function AverageExpense(s: seq<ExpenseStatus>, spent: real): (avg: int)
    ensures Count(s, CompletedStatuses) == 0 ==> avg == 0
    ensures Count(s, CompletedStatuses) > 0 ==>
      var mean := spent / Count(s, CompletedStatuses) as real;
      mean - 0.5 < avg as real <= mean + 0.5
  {
    var completed := Count(s, CompletedStatuses);
    if completed > 0 then RoundHalfUp(spent / completed as real) else 0
  }

  /** Wherever the grid's average is finite and guarded correctly, the corrected one agrees with it. */
  lemma AverageExpenseAgrees(s: seq<ExpenseStatus>, spent: real)
    requires Count(s, CompletedStatuses) > 0 || spent == 0.0
    ensures AverageExpenseAsWritten(s, spent) == Finite(AverageExpense(s, spent) as real)
  {
    if |s| == 0 {
      assert Filter(s, CompletedStatuses) == [];
    }
  }

  // ---------------------------------------------------------------------
  // The grid as a whole

  datatype Metrics = Metrics(
    utilization: real,
    pendingApprovals: nat,
    completedExpenses: nat,
    deniedExpenses: nat,
    totalExpenses: nat,
    completionRate: real,
    approvalRate: real,
    averageExpense: int,
    health: Health,
    balanceSubtitle: string)

  /** Every figure the grid shows, for one summary and list of expenses. */
  function Compute(summary: Summary, expenses: seq<Expense>): (m: Metrics)
    ensures m.totalExpenses == |expenses|
    ensures m.pendingApprovals == Count(Statuses(expenses), PendingStatuses)
    ensures m.completedExpenses == Count(Statuses(expenses), CompletedStatuses)
    ensures m.deniedExpenses == Count(Statuses(expenses), DeniedStatuses)
    ensures m.pendingApprovals + m.completedExpenses + m.deniedExpenses <= m.totalExpenses
    ensures m.averageExpense == AverageExpense(Statuses(expenses), summary.totalSpent)
    ensures m.utilization == Utilization(summary)
    ensures m.completionRate == CompletionRate(Statuses(expenses))
    ensures m.approvalRate == ApprovalRate(Statuses(expenses))
    ensures m.health == Classify(m.utilization)
    ensures m.balanceSubtitle == BalanceSubtitle(summary.totalRemaining)
    ensures 0.0 <= m.completionRate <= 100.0 && 0.0 <= m.approvalRate <= 100.0
    ensures m.health == Over <==> m.utilization > 100.0
    ensures m.balanceSubtitle == "Over budget" <==> summary.totalRemaining < 0.0
    ensures summary.totalAllocated <= 0.0 ==> m.health == Excellent
  {
    var s := Statuses(expenses);
    var u := Utilization(summary);
    BucketsBounded(s);
    Metrics(u, Count(s, PendingStatuses), Count(s, CompletedStatuses), Count(s, DeniedStatuses), |s|,
            CompletionRate(s), ApprovalRate(s), AverageExpense(s, summary.totalSpent), Classify(u),
            BalanceSubtitle(summary.totalRemaining))
  }
}

=== FILE: navigation.dfy ===
/**
 * The dashboard layout's navigation: the sidebar items, the avatar initials,
 * the page title and the active-item test.
 */
module Navigation {
  import opened Wrappers
  import opened Strings
  import Routes

  datatype NavItem = NavItem(name: string, href: string, description: string)

  const DashboardItem := NavItem("Dashboard", "/", "Overview and calendar")
  const AdminItems: seq<NavItem> := [
    NavItem("Admin Panel", "/admin", "Review events"),
    NavItem("Users", "/users", "Manage users"),
    NavItem("Rooms", "/rooms", "Manage rooms"),
    NavItem("Analytics", "/analytics", "Usage statistics")
  ]

  /** The sidebar: Dashboard first, then the four admin items for admins only. */
  function Items(isAdmin: bool): (nav: seq<NavItem>)
    ensures |nav| >= 1 && nav[0] == DashboardItem
    ensures isAdmin ==> nav == [DashboardItem] + AdminItems
    ensures !isAdmin ==> nav == [DashboardItem]
    ensures forall i, j :: 0 <= i < j < |nav| ==> nav[i].href != nav[j].href
  {
    [DashboardItem] + (if isAdmin then AdminItems else [])
  }

  /** Whether `item` is highlighted for the current path. */
  predicate IsActive(item: NavItem, pathname: string) {
    pathname == item.href
  }

  /** Since the hrefs are distinct, at most one item is highlighted at a time. */
  lemma AtMostOneActive(isAdmin: bool, pathname: string, i: nat, j: nat)
    requires i < j < |Items(isAdmin)|
    ensures !(IsActive(Items(isAdmin)[i], pathname) && IsActive(Items(isAdmin)[j], pathname))
  {
  }

  /** The index of the first item whose href is `pathname`, if any. */
  function FindByHref(nav: seq<NavItem>, pathname: string): (r: Option<nat>)
    ensures r.Some? ==> r.value < |nav| && nav[r.value].href == pathname
    ensures r.Some? ==> forall j :: 0 <= j < r.value ==> nav[j].href != pathname
    ensures r.None? ==> forall j :: 0 <= j < |nav| ==> nav[j].href != pathname
  {
    if |nav| == 0 then None
    else if nav[0].href == pathname then Some(0)
    else match FindByHref(nav[1..], pathname)
      case None => None
      case Some(k) => Some(k + 1)
  }

  const DefaultTitle: string := "Calendar Management"

  /** `getPageTitle`: the first matching item's name, or the default when none matches or the name is empty. */
  function PageTitle(nav: seq<NavItem>, pathname: string): (title: string)
    ensures (forall j :: 0 <= j < |nav| ==> nav[j].href != pathname) ==> title == DefaultTitle
    ensures forall i :: (0 <= i < |nav| && nav[i].href == pathname && nav[i].name != ""
      && (forall j :: 0 <= j < i ==> nav[j].href != pathname)) ==> title == nav[i].name
    ensures title != ""
  {
    match FindByHref(nav, pathname)
    case None => DefaultTitle
    case Some(k) => if nav[k].name != "" then nav[k].name else DefaultTitle
  }

  /** The dashboard page itself lives at "/dashboard", which no item links to, so its title is the default. */
  lemma DashboardRouteHasDefaultTitle(isAdmin: bool)
    ensures PageTitle(Items(isAdmin), "/dashboard") == DefaultTitle
    ensures Routes.Resolve("/dashboard").Protected?
  {
    Routes.DashboardAndRoot();
  }

  /** The "Dashboard" item links to "/", which the route table redirects to the public calendar. */
  lemma DashboardItemRedirectsToPublic()
    ensures Routes.Resolve(DashboardItem.href) == Routes.RedirectTo("/public")
  {
    Routes.DashboardAndRoot();
  }

  /** The first three admin items open admin-only pages. */
  lemma AdminItemsAreAdminOnly(k: nat)
    requires k < 3
    ensures Routes.Resolve(AdminItems[k].href).Protected? && Routes.Resolve(AdminItems[k].href).adminOnly
  {
    Routes.AdminPagesAreAdminOnly(AdminItems[k].href);
  }

  /** The "Analytics" item links to a path the route table does not have, so it opens the not-found page. */
  lemma AnalyticsItemIsNotRouted()
    ensures Routes.Resolve(AdminItems[3].href) == Routes.Page("NotFound")
  {
    var path := AdminItems[3].href;
    assert path == "/analytics";
    forall k | 0 <= k < |Routes.Table| ensures Routes.Table[k].pattern != path {
    }
    Routes.DiffersFromSlugPrefix(path, 1);
    Routes.UnknownPathIsNotFound(path);
  }

  // ---------------------------------------------------------------------
  // Avatar initials

  /** The first character of every non-empty part, joined. */
  function Firsts(parts: seq<string>): (r: string)
    ensures |r| <= |parts|
  {
    if |parts| == 0 then ""
    else (if |parts[0]| > 0 then [parts[0][0]] else "") + Firsts(parts[1..])
  }

  /**
   * The characters of `s` that begin a word: a non-space preceded by a space
   * or, when `atStart` holds, by the beginning of the text.
   */
  function WordStarts(s: string, atStart: bool): (r: string)
    ensures forall c :: c in r ==> c in s && c != ' '
  {
    if |s| == 0 then ""
    else (if s[0] != ' ' && atStart then [s[0]] else "") + WordStarts(s[1..], s[0] == ' ')
  }

  /** Taking the first character of each part of `split(" ")` picks exactly the word starts. */
  lemma {:induction false} FirstsOfSplit(s: string)
    ensures Firsts(Split(s, ' ')) == WordStarts(s, true)
    ensures Firsts(Split(s, ' ')[1..]) == WordStarts(s, false)
    decreases |s|
  {
    if |s| > 0 {
      var rest := Split(s[1..], ' ');
      FirstsOfSplit(s[1..]);
      var parts := Split(s, ' ');
      if s[0] == ' ' {
        assert parts == [""] + rest;
        assert parts[1..] == rest;
      } else {
        assert parts == [[s[0]] + rest[0]] + rest[1..];
        assert parts[1..] == rest[1..];
      }
    }
  }

  /** `getUserInitials`: "U" without a name, else the upper-cased first letters of the words, at most two. */
  function UserInitials(name: Option<string>): (initials: string)
    ensures name.None? || name.value == "" ==> initials == "U"
    ensures name.Some? && name.value != "" ==> initials == Take(Upper(WordStarts(name.value, true)), 2)
    ensures |initials| <= 2
  {
    if name.None? || name.value == "" then "U"
    else
      FirstsOfSplit(name.value);
      Take(Upper(Firsts(Split(name.value, ' '))), 2)
  }

  /** Two words give two initials. */
  lemma TwoWordInitials()
    ensures UserInitials(Some("ab cd")) == "AC"
  {
    assert WordStarts("cd", false) == "" by {
      assert WordStarts("d", false) == "";
    }
    assert WordStarts(" cd", false) == "c";
    assert WordStarts("b cd", false) == "c";
    assert WordStarts("ab cd", true) == "ac";
    assert Upper("ac") == "AC";
  }

  /** A name of spaces only gives no initials at all, not the "U" fallback. */
  lemma BlankNameInitials()
    ensures UserInitials(Some(" ")) == ""
  {
    assert WordStarts(" ", true) == "";
  }
}

=== FILE: overview.dfy ===
/**
 * The budget overview panel: expense and allocation totals, the tab chosen
 * by default, and which summary cards and tabs are shown.
 */
module BudgetOverview {
  import opened BudgetMetrics

  /** An allocation request as the overview sees it; the approved amount is never summed. */
  datatype Allocation = Allocation(requestedAmount: real, approvedAmount: real)

  /** The sum of the expenses' amounts, added left to right from 0. */
  function ExpenseTotal(expenses: seq<Expense>): (total: real)
    ensures (forall k :: 0 <= k < |expenses| ==> expenses[k].amount >= 0.0) ==> total >= 0.0
  {
    if |expenses| == 0 then 0.0
    else ExpenseTotal(expenses[..|expenses| - 1]) + expenses[|expenses| - 1].amount
  }

  /** The sum of the allocations' requested amounts, added left to right from 0. */
  function AllocationTotal(allocations: seq<Allocation>): (total: real)
    ensures (forall k :: 0 <= k < |allocations| ==> allocations[k].requestedAmount >= 0.0) ==> total >= 0.0
  {
    if |allocations| == 0 then 0.0
    else AllocationTotal(allocations[..|allocations| - 1]) + allocations[|allocations| - 1].requestedAmount
  }

  /** The expense total of a concatenation is the sum of the parts' totals. */
  lemma {:induction false} ExpenseTotalConcat(xs: seq<Expense>, ys: seq<Expense>)
    ensures ExpenseTotal(xs + ys) == ExpenseTotal(xs) + ExpenseTotal(ys)
    decreases |ys|
  {
    if |ys| > 0 {
      assert (xs + ys)[..|xs + ys| - 1] == xs + ys[..|ys| - 1];
      ExpenseTotalConcat(xs, ys[..|ys| - 1]);
    } else {
      assert xs + ys == xs;
    }
  }

  /** The allocation total depends only on requested amounts: changing approved amounts leaves it unchanged. */
  lemma {:induction false} AllocationTotalIgnoresApproved(xs: seq<Allocation>, ys: seq<Allocation>)
    requires |xs| == |ys|
    requires forall k :: 0 <= k < |xs| ==> xs[k].requestedAmount == ys[k].requestedAmount
    ensures AllocationTotal(xs) == AllocationTotal(ys)
    decreases |xs|
  {
    if |xs| > 0 {
      AllocationTotalIgnoresApproved(xs[..|xs| - 1], ys[..|ys| - 1]);
    }
  }

  datatype View = ExpensesView | AllocationsView | Combined
  datatype Tab = ExpensesTab | AllocationsTab

  /** `getDefaultTab`: a specific view is kept; "combined" prefers whichever list has data, expenses first. */
  function DefaultTab(defaultView: View, hasExpenses: bool, hasAllocations: bool): (tab: Tab)
    ensures defaultView == ExpensesView ==> tab == ExpensesTab
    ensures defaultView == AllocationsView ==> tab == AllocationsTab
    ensures defaultView == Combined ==> (tab == AllocationsTab <==> !hasExpenses && hasAllocations)
  {
    match defaultView
    case ExpensesView => ExpensesTab
    case AllocationsView => AllocationsTab
    case Combined => if hasExpenses then ExpensesTab else if hasAllocations then AllocationsTab else ExpensesTab
  }

  /** What the panel shows for the given lists. */
  datatype Layout = Layout(
    expenseCard: bool,
    allocationCard: bool,
    totalActivityCard: bool,
    tabs: bool,
    tabColumns: nat,
    expensesTab: bool,
    allocationsTab: bool,
    emptyState: bool,
    expenseTotal: real,
    allocationTotal: real,
    totalActivity: real)

  function ShowOverview(expenses: seq<Expense>, allocations: seq<Allocation>): (l: Layout)
    ensures l.expenseCard <==> |expenses| > 0
    ensures l.allocationCard <==> |allocations| > 0
    ensures l.totalActivityCard <==> |expenses| > 0 && |allocations| > 0
    ensures l.emptyState <==> |expenses| == 0 && |allocations| == 0
    ensures l.tabs <==> !l.emptyState
    ensures l.tabColumns == |set t | t in {ExpensesTab, AllocationsTab} && TabShown(l, t)|
    ensures l.tabs <==> l.tabColumns > 0
    ensures l.expensesTab <==> |expenses| > 0
    ensures l.allocationsTab <==> |allocations| > 0
    ensures TabShown(l, ExpensesTab) <==> |expenses| > 0
    ensures TabShown(l, AllocationsTab) <==> |allocations| > 0
    ensures l.tabColumns == (if |expenses| > 0 then 1 else 0) + (if |allocations| > 0 then 1 else 0)
    ensures l.totalActivity == l.expenseTotal + l.allocationTotal
    ensures l.expenseTotal == ExpenseTotal(expenses) && l.allocationTotal == AllocationTotal(allocations)
  {
    var hasE := |expenses| > 0;
    var hasA := |allocations| > 0;
    var columns := (if hasE then 1 else 0) + (if hasA then 1 else 0);
    var l := Layout(hasE, hasA, hasE && hasA, hasE || hasA, columns, hasE, hasA, !(hasE || hasA),
                    ExpenseTotal(expenses), AllocationTotal(allocations),
                    ExpenseTotal(expenses) + AllocationTotal(allocations));
    var shown := set t | t in {ExpensesTab, AllocationsTab} && TabShown(l, t);
    assert shown == (if hasE then {ExpensesTab} else {}) + (if hasA then {AllocationsTab} else {});
    l
  }

  /** Whether the tab's trigger and content are rendered. */
  predicate TabShown(l: Layout, t: Tab) {
    match t
    case ExpensesTab => l.tabs && l.expensesTab
    case AllocationsTab => l.tabs && l.allocationsTab
  }

  /** With the "combined" view, the default tab is always one the panel renders. */
  lemma CombinedDefaultTabIsShown(expenses: seq<Expense>, allocations: seq<Allocation>)
    requires |expenses| > 0 || |allocations| > 0
    ensures TabShown(ShowOverview(expenses, allocations), DefaultTab(Combined, |expenses| > 0, |allocations| > 0))
  {
  }
}

=== FILE: routes.dfy ===
/**
 * The application's route table and the protected-route guard that decides,
 * from the authentication and organisation state, whether a page renders.
 */
module Routes {
  import opened Strings

  /** What the auth and organisation contexts report. */
  datatype Session = Session(
    authLoading: bool,
    orgLoading: bool,
    signedIn: bool,
    hasOrganization: bool,
    isAdmin: bool)

  datatype Decision = Loader(message: string) | Redirect(to: string) | RenderChildren

  /** `ProtectedRoute`: the checks in order, the first that applies decides. */
  function Guard(s: Session, adminOnly: bool): (d: Decision)
    ensures s.authLoading || s.orgLoading ==> d == Loader("Authenticating...")
    ensures !s.authLoading && !s.orgLoading && !s.signedIn ==> d == Redirect("/auth")
    ensures !s.authLoading && !s.orgLoading && s.signedIn && !s.hasOrganization ==> d == Loader("Loading organization...")
    ensures !s.authLoading && !s.orgLoading && s.signedIn && s.hasOrganization ==>
      d == (if adminOnly && !s.isAdmin then Redirect("/dashboard") else RenderChildren)
    ensures d == RenderChildren ==> s.signedIn && s.hasOrganization && (adminOnly ==> s.isAdmin)
  {
    if s.authLoading || s.orgLoading then Loader("Authenticating...")
    else if !s.signedIn then Redirect("/auth")
    else if !s.hasOrganization then Loader("Loading organization...")
    else if adminOnly && !s.isAdmin then Redirect("/dashboard")
    else RenderChildren
  }

  /** A route that is not admin-only never turns anyone away for their role. */
  lemma GuardIgnoresRoleUnlessAdminOnly(s: Session)
    ensures Guard(s, false) == Guard(s.(isAdmin := true), false)
    ensures Guard(s, false) != Redirect("/dashboard")
  {
  }

  /** Marking a route admin-only only ever adds the redirect to the dashboard. */
  lemma AdminOnlyOnlyAddsRedirect(s: Session)
    ensures Guard(s, true) == Guard(s, false) || (Guard(s, false) == RenderChildren && Guard(s, true) == Redirect("/dashboard"))
  {
  }

  datatype Element = RedirectTo(target: string) | Page(name: string) | Protected(page: string, adminOnly: bool)

  datatype Route = Route(pattern: string, element: Element)

  /** The route table, in declaration order; "*" is the catch-all. */
  const Table: seq<Route> := [
    Route("/", RedirectTo("/public")),
    Route("/auth", Page("Auth")),
    Route("/forgot-password", Page("ForgotPassword")),
    Route("/reset-password", Page("ResetPassword")),
    Route("/public", Page("PublicCalendar")),
    Route("/public/:slug", Page("PublicCalendar")),
    Route("/dashboard", Protected("Dashboard", false)),
    Route("/admin", Protected("Admin", true)),
    Route("/users", Protected("Users", true)),
    Route("/rooms", Protected("Rooms", true)),
    Route("*", Page("NotFound"))
  ]

  const SlugPrefix: string := "/public/"

  /** Whether `path` matches `pattern`: exactly for static patterns, one non-empty segment for ":slug". */
  predicate Matches(pattern: string, path: string) {
    if pattern == "*" then true
    else if pattern == "/public/:slug" then
      IsPrefix(SlugPrefix, path) && |path| > |SlugPrefix| && '/' !in path[|SlugPrefix|..]
    else pattern == path
  }

  /** The index of the first route matching `path` from position `from` on. */
  function FirstMatch(path: string, from: nat): (k: nat)
    requires from < |Table|
    ensures from <= k < |Table| && Matches(Table[k].pattern, path)
    ensures forall j :: from <= j < k ==> !Matches(Table[j].pattern, path)
    decreases |Table| - from
  {
    if Matches(Table[from].pattern, path) || from == |Table| - 1 then from
    else FirstMatch(path, from + 1)
  }

  /** The element the router renders for `path`. */
  function Resolve(path: string): (e: Element)
    ensures exists k :: 0 <= k < |Table| && Matches(Table[k].pattern, path) && e == Table[k].element
  {
    Table[FirstMatch(path, 0)].element
  }

  /** Apart from the catch-all, no two routes match the same path, so declaration order decides nothing. */
  lemma RoutesUnambiguous(path: string, i: nat, j: nat)
    requires i < j < |Table| - 1
    ensures !(Matches(Table[i].pattern, path) && Matches(Table[j].pattern, path))
  {
    StaticPatternsAreNotSlugs();
  }

  /** A path matched by a route other than the catch-all resolves to that route's element. */
  lemma ResolveStatic(path: string, k: nat)
    requires k < |Table| - 1 && Matches(Table[k].pattern, path)
    ensures Resolve(path) == Table[k].element
  {
    var m := FirstMatch(path, 0);
    if m < k {
      RoutesUnambiguous(path, m, k);
    }
  }

  /** A text that differs from "/public/" within its first eight characters does not start with it. */
  lemma DiffersFromSlugPrefix(s: string, k: nat)
    requires k < |SlugPrefix| && k < |s| && s[k] != SlugPrefix[k]
    ensures !IsPrefix(SlugPrefix, s)
  {
  }

  /** No static pattern of the table matches the ":slug" route. */
  lemma StaticPatternsAreNotSlugs()
    ensures forall k :: 0 <= k < |Table| - 1 && k != 5 ==> !IsPrefix(SlugPrefix, Table[k].pattern)
  {
    DiffersFromSlugPrefix("/auth", 1);
    DiffersFromSlugPrefix("/forgot-password", 1);
    DiffersFromSlugPrefix("/reset-password", 1);
    DiffersFromSlugPrefix("/dashboard", 1);
    DiffersFromSlugPrefix("/admin", 1);
    DiffersFromSlugPrefix("/users", 1);
    DiffersFromSlugPrefix("/rooms", 1);
  }

  /** What visiting `path` produces, for a given session. */
  function Visit(path: string, s: Session): (d: Decision)
    ensures Resolve(path).RedirectTo? ==> d == Redirect(Resolve(path).target)
    ensures Resolve(path).Page? ==> d == RenderChildren
    ensures Resolve(path).Protected? ==> d == Guard(s, Resolve(path).adminOnly)
  {
    match Resolve(path)
    case RedirectTo(target) => Redirect(target)
    case Page(_) => RenderChildren
    case Protected(_, adminOnly) => Guard(s, adminOnly)
  }

  /** "/admin", "/users" and "/rooms" are admin-only pages. */
  lemma AdminPagesAreAdminOnly(path: string)
    requires path in {"/admin", "/users", "/rooms"}
    ensures Resolve(path).Protected? && Resolve(path).adminOnly
  {
    if path == "/admin" {
      ResolveStatic(path, 7);
    } else if path == "/users" {
      ResolveStatic(path, 8);
    } else {
      ResolveStatic(path, 9);
    }
  }

  /** "/dashboard" is protected but open to every member; "/" redirects to the public calendar. */
  lemma DashboardAndRoot()
    ensures Resolve("/dashboard") == Protected("Dashboard", false)
    ensures Resolve("/") == RedirectTo("/public")
  {
    ResolveStatic("/dashboard", 6);
    ResolveStatic("/", 0);
  }

  /** A single segment after "/public/" opens the public calendar of that slug. */
  lemma PublicSlugOpensCalendar(slug: string)
    requires slug != "" && '/' !in slug
    ensures Resolve(SlugPrefix + slug) == Page("PublicCalendar")
  {
    var path := SlugPrefix + slug;
    assert path[..|SlugPrefix|] == SlugPrefix && path[|SlugPrefix|..] == slug;
    ResolveStatic(path, 5);
  }

  /** A path that is no pattern of the table and does not start with "/public/" falls through to the catch-all. */
  lemma UnknownPathIsNotFound(path: string)
    requires forall k :: 0 <= k < |Table| ==> Table[k].pattern != path
    requires !IsPrefix(SlugPrefix, path)
    ensures Resolve(path) == Page("NotFound")
  {
    var m := FirstMatch(path, 0);
    assert Matches(Table[m].pattern, path);
  }

  /** A signed-in member without the admin role who opens an admin page is sent to the dashboard. */
  lemma NonAdminSentToDashboard(path: string, s: Session)
    requires path in {"/admin", "/users", "/rooms"}
    requires !s.authLoading && !s.orgLoading && s.signedIn && s.hasOrganization && !s.isAdmin
    ensures Visit(path, s) == Redirect("/dashboard")
  {
    AdminPagesAreAdminOnly(path);
  }
}

=== FILE: strings.dfy ===
/**
 * The few JavaScript string operations the modelled code relies on:
 * `includes`, `replace` with a string pattern, `split` on one character,
 * ASCII upper-casing and `slice(0, n)`.
 */
module Strings {
  import opened Wrappers

  /** `s.includes(sub)`: `sub` occurs somewhere in `s`. */
  predicate Contains(s: string, sub: string) {
    exists i | 0 <= i <= |s| :: OccursAt(s, sub, i)
  }

  /** `sub` occurs in `s` starting at index `i`. */
  predicate OccursAt(s: string, sub: string, i: int) {
    0 <= i && i + |sub| <= |s| && s[i..i + |sub|] == sub
  }

  /** `s.includes(c)` for a one-character pattern. */
  predicate HasChar(s: string, c: char) {
    c in s
  }

  /** `s` starts with `p`. */
  predicate IsPrefix(p: string, s: string) {
    |p| <= |s| && s[..|p|] == p
  }

  /** The index of the first occurrence of `pat` in `s`, if any. */
  function IndexOf(s: string, pat: string): (r: Option<nat>)
    ensures r.Some? ==> OccursAt(s, pat, r.value)
    ensures r.Some? ==> forall j :: 0 <= j < r.value ==> !OccursAt(s, pat, j)
    ensures r.None? <==> !Contains(s, pat)
    decreases |s|
  {
    if IsPrefix(pat, s) then
      assert OccursAt(s, pat, 0);
      Some(0)
    else if |s| <= |pat| then
      None
    else
      match IndexOf(s[1..], pat)
      case None =>
        NotInTail(s, pat);
        None
      case Some(k) =>
        FirstInTail(s, pat, k);
        Some(k + 1)
  }

  /** An occurrence past the first index of `s` is an occurrence in its tail, one index earlier. */
  lemma OccursInTail(s: string, pat: string, i: int)
    requires 1 <= i && |s| >= 1
    ensures OccursAt(s, pat, i) <==> OccursAt(s[1..], pat, i - 1)
  {
    if i + |pat| <= |s| {
      assert s[1..][i - 1..i - 1 + |pat|] == s[i..i + |pat|];
    }
  }

  lemma NotInTail(s: string, pat: string)
    requires |s| >= 1 && !IsPrefix(pat, s) && !Contains(s[1..], pat)
    ensures !Contains(s, pat)
  {
    forall i | 0 <= i <= |s| ensures !OccursAt(s, pat, i) {
      if i >= 1 {
        OccursInTail(s, pat, i);
      }
    }
  }

  lemma FirstInTail(s: string, pat: string, k: nat)
    requires |s| >= 1 && !IsPrefix(pat, s)
    requires OccursAt(s[1..], pat, k) && forall j :: 0 <= j < k ==> !OccursAt(s[1..], pat, j)
    ensures OccursAt(s, pat, k + 1) && forall j :: 0 <= j < k + 1 ==> !OccursAt(s, pat, j)
  {
    OccursInTail(s, pat, k + 1);
    forall j | 1 <= j < k + 1 ensures !OccursAt(s, pat, j) {
      OccursInTail(s, pat, j);
    }
  }

  /** `s.replace(pat, rep)` with a string pattern: only the first occurrence is replaced. */
  function ReplaceFirst(s: string, pat: string, rep: string): (r: string)
    ensures !Contains(s, pat) ==> r == s
    ensures Contains(s, pat) ==>
      exists i :: OccursAt(s, pat, i) && r == s[..i] + rep + s[i + |pat|..]
  {
    match IndexOf(s, pat)
    case None => s
    case Some(i) => s[..i] + rep + s[i + |pat|..]
  }

  /** Removing a leading pattern after it was prepended gives back the original text. */
  lemma ReplaceFirstOfPrefix(p: string, t: string)
    ensures ReplaceFirst(p + t, p, "") == t
  {
    assert IsPrefix(p, p + t);
    assert (p + t)[|p|..] == t;
  }

  /** `s.split(c)`: the parts between occurrences of `c`; empty parts are kept. */
  function Split(s: string, c: char): (parts: seq<string>)
    ensures |parts| >= 1
    ensures forall k :: 0 <= k < |parts| ==> c !in parts[k]
    decreases |s|
  {
    if |s| == 0 then [""]
    else
      var rest := Split(s[1..], c);
      if s[0] == c then [""] + rest
      else [[s[0]] + rest[0]] + rest[1..]
  }

  /** Joining the parts of a split with the separator gives back the original text. */
  function Join(parts: seq<string>, c: char): string
    requires |parts| >= 1
  {
    if |parts| == 1 then parts[0] else parts[0] + [c] + Join(parts[1..], c)
  }

  lemma {:induction false} JoinSplit(s: string, c: char)
    ensures Join(Split(s, c), c) == s
    decreases |s|
  {
    if |s| > 0 {
      var rest := Split(s[1..], c);
      JoinSplit(s[1..], c);
      if s[0] == c {
        assert Split(s, c)[1..] == rest;
      } else {
        var parts := Split(s, c);
        assert parts[0] == [s[0]] + rest[0];
        if |rest| > 1 {
          assert parts[1..] == rest[1..];
        }
      }
    }
  }

  /** A text without the separator splits into itself alone. */
  lemma {:induction false} SplitWithoutSeparator(a: string, c: char)
    requires c !in a
    ensures Split(a, c) == [a]
    decreases |a|
  {
    if |a| > 0 {
      SplitWithoutSeparator(a[1..], c);
      assert [a[0]] + a[1..] == a;
    }
  }

  /** Splitting at the first separator: the text before it is the first part. */
  lemma {:induction false} SplitAtFirst(a: string, b: string, c: char)
    requires c !in a
    ensures Split(a + [c] + b, c) == [a] + Split(b, c)
    decreases |a|
  {
    var s := a + [c] + b;
    if |a| == 0 {
      assert s[0] == c && s[1..] == b;
    } else {
      assert s[0] == a[0] && s[1..] == a[1..] + [c] + b;
      SplitAtFirst(a[1..], b, c);
      assert [a[0]] + a[1..] == a;
    }
  }

  /** ASCII upper-casing of one character; other characters are unchanged. */
  function UpperChar(c: char): (u: char)
    ensures 'a' <= c <= 'z' ==> 'A' <= u <= 'Z'
    ensures !('a' <= c <= 'z') ==> u == c
  {
    if 'a' <= c <= 'z' then (c as int - 'a' as int + 'A' as int) as char else c
  }

  /** `s.toUpperCase()` restricted to ASCII letters. */
  function Upper(s: string): (u: string)
    ensures |u| == |s|
    ensures forall i :: 0 <= i < |s| ==> u[i] == UpperChar(s[i])
  {
    if |s| == 0 then "" else [UpperChar(s[0])] + Upper(s[1..])
  }

  /** `s.slice(0, n)`. */
  function Take(s: string, n: nat): (r: string)
    ensures |r| <= n && |r| <= |s|
    ensures IsPrefix(r, s)
    ensures |s| <= n ==> r == s
  {
    if |s| <= n then s else s[..n]
  }
}

=== FILE: wrappers.dfy ===
/** Option and Result types shared by every module of the model. */
module Wrappers {

  /** A value that may be absent: JavaScript's `undefined`/`null`. */
  datatype Option<+T> = None | Some(value: T) {

    /** Returns the value, or `default` when absent. */
    function GetOr(default: T): (r: T)
      ensures Some? ==> r == value
      ensures None? ==> r == default
    {
      match this
      case Some(v) => v
      case None => default
    }
  }

  /** The outcome of a call that either yields a value or fails with an error. */
  datatype Result<+R, +E> = Success(value: R) | Failure(error: E)
}
